=== FILE: README.md ===
# flask-svelte text rewriting, modelled in Dafny

`flask-svelte` scaffolds a Flask project with Svelte pages. Two pieces of its
`flask_svelte/main.py` do real work on text, and these are what this project
models and proves things about:

- **`update_rollup_config`**, the build-configuration updater. `add_page` calls it
  once per new page, and `create` calls it once for `index`. It reads
  `rollup.config.js` line by line. Every line that starts with
  `let svelte_apps` is parsed as a list of quoted page names, the new name is
  appended, and the line is rewritten as `let svelte_apps = [...];\n`. All
  other lines pass through untouched.
- **The substitution loop of `copy_file_with_replace`**. Each marker of the
  replacement map is replaced by its value, in the map's order, with Python's
  `str.replace`.

The model is pure and functional. Strings are `seq<char>`. The I/O around both
pieces is dropped: the file's text, or its lines, are parameters. The modules
are:

- `Results` (results.dfy): a `Result` type with Dafny's `:-` failure
  propagation. It models the one exception the parser can raise.
- `PyStrings` (pystrings.dfy): the parts of Python's `str` the tool relies on.
  - `strip()` uses CPython's `isspace` character set.
  - `split(sep)` always yields at least one piece.
  - `sep.join(parts)`.
  - `replace(key, value)`: a left-to-right scan over non-overlapping
    occurrences. An empty key inserts the value around every character.
  - The slice `s[1:-1]`.
  - Each comes with the lemmas that relate it to the others.
- `Substitution` (substitution.dfy): the replacement loop, and the three ways
  `create`/`add_page` use it: the manifest, the page HTML and the verbatim copies.
- `RollupConfig` (rollup_config.dfy): parsing a declaration line
  (`ParseApps`), rendering it (`SerializeApps`), updating one line
  (`UpdateLine`), updating all lines (`UpdateRollupConfig`), and
  registrations in a row (`RegisterAll`).
- `WrittenLists` (written_lists.dfy): declarations as a person writes them,
  with single or double quotes, whitespace around elements and list, and
  blank elements such as a trailing comma leaves. The parser reads them as
  the names they quote.
- `ConfigFile` (config_file.dfy): `readlines()`/`writelines()` over the
  file's text, and the update stated on the text.
- `Scenarios` (scenarios.dfy): the template's seed declaration
  `let svelte_apps = [];`, and registrations on a single declaration line
  starting from it: `create` registering `index`, then further
  `update_rollup_config` runs, one per `add_page` of a new page.

The model follows what the code does, including where a plainer reading of
the tool's purpose would suggest something else:

- A declaration is recognised by a raw `line.startswith("let svelte_apps")`.
  There is no trimming and no `=` in the prefix. An indented declaration is
  passed through. `let svelte_appsX = ...` is rewritten.
- Every matching line is rewritten, not only the first.
- The list text is `line.split("=")[1]`: the text between the first and the
  second `=`, not everything after the first.
- Every `;` is removed, not only the trailing one.
- The first and last characters are dropped whether or not they are brackets.
- A matching line without `=` raises `IndexError`. Here that is
  `Failure(NoEqualsSign)`, and nothing is written back: the whole update fails.
- A file with no matching line is written back byte for byte. It is not an
  error.
- Names are re-rendered by Python's list `repr`, so they come out in single
  quotes whatever quotes they were read with.
- The rewritten line always ends in `\n`, even when the line it replaces was
  the last line and had none.
- A registered name is written as one quoted string, but the next update
  reads it back through the same split and strip as any other list. A `,`
  inside the name splits it into several names, and whitespace around it is
  stripped: a page registered as `a,b` is read back as `a` and `b`, and one
  registered as ` x` as `x`.
- `update_rollup_config` does no deduplication. A name already listed is
  appended again. `add_page` runs `copytree` first, which fails for an
  existing page directory, so it reaches an already listed name when the
  list was edited by hand, when the page directory was removed, or when an
  earlier name holding a `,` or surrounding whitespace is read back as this
  name (`a,b` then `a`, or ` x` then `x`).

The natural promise "replacing a key by a value that does not contain it
leaves no occurrence of the key" holds only for one-character keys. For longer
keys it fails: `"aabb".replace("ab", "") == "ab"` (`PyStrings.ReplaceMayLeaveKey`).
The markers `create` and `add_page` use never occur in their replacement values
in practice. Even so, the model does not claim the general property.

## Model

| member | source | states |
|---|---|---|
| Substitution.ApplyReplacements | flask_svelte/main.py:25-31 | the content is rewritten once per key of the map, in map order; an empty map leaves the content unchanged |
| Substitution.NoMarkerPresentUnchanged | flask_svelte/main.py:28-29 | content in which none of the (non-empty) keys occurs comes out of the whole loop unchanged |
| Substitution.IdentityMapUnchanged | flask_svelte/main.py:28-29 | a map that sends every (non-empty) key to itself changes nothing |
| Substitution.SingleMarker | flask_svelte/main.py:28-29 | with one key, the result is `value.join(content.split(key))`: text between occurrences kept, every non-overlapping occurrence, from the left, replaced |
| Substitution.RenderManifest | flask_svelte/main.py:61-65 | `package.json` is the template with every non-overlapping `##app-name##`, from the left, replaced by the project name, and the template itself when the marker does not occur |
| Substitution.CopyVerbatim | flask_svelte/main.py:68-83 | the copies made without a map (`rollup.config.js`, `tailwind.config.js`, `app/__init__.py`) reproduce their templates exactly |
| Substitution.RenderPageHtml | flask_svelte/main.py:125-129 | `templates/<name>.html` is the template with every non-overlapping `##svelte-app##`, from the left, replaced by the page name, and the template itself when the marker does not occur |
| PyStrings.ReplaceAll | flask_svelte/main.py:29-29 | no contract of its own: `str.replace`; `ReplaceIsJoinOfSplit`, `ReplaceAbsent` and `ReplaceBySelf` state what it does |
| PyStrings.ReplaceKey | flask_svelte/main.py:29-29 | no contract of its own: the left-to-right scan for a non-empty key; stated through `ReplaceAll` by the same lemmas |
| PyStrings.InsertEverywhere | flask_svelte/main.py:29-29 | replacing an empty key puts the value before every character and once at the end: the length grows by the value once per gap, and the text starts with the value |
| PyStrings.ReplaceIsJoinOfSplit | flask_svelte/main.py:29-29 | for a non-empty key, `s.replace(k, v) == v.join(s.split(k))` |
| PyStrings.ReplaceAbsent | flask_svelte/main.py:29-29 | text in which a non-empty key does not occur is returned unchanged |
| PyStrings.ReplaceBySelf | flask_svelte/main.py:29-29 | replacing a non-empty key by itself changes nothing |
| PyStrings.ReplaceCharRemovesAll | flask_svelte/main.py:29-29 | replacing a one-character key by a value without that character leaves no occurrence of it |
| PyStrings.ReplaceMayLeaveKey | flask_svelte/main.py:29-29 | for a two-character key that promise fails: `"aabb".replace("ab", "")` is `"ab"` |
| PyStrings.ReplaceCharChars | flask_svelte/main.py:148-148 | after replacing a character, every character left is an original character other than it, or comes from the value |
| PyStrings.Split | flask_svelte/main.py:143-145 | there is always at least one piece; `SplitJoin`, `SplitCharCount` and `SplitCharPiecesAvoid` state what the pieces are |
| PyStrings.Join | flask_svelte/main.py:145-145 | no contract of its own: `SplitJoin` and `JoinSplitChar` state it inverts `Split` |
| PyStrings.FirstIndex | flask_svelte/main.py:143-143 | the position of the first occurrence: the character is there, and not before it |
| PyStrings.SplitFirstPiece | flask_svelte/main.py:143-143 | the first piece of a split on a character is the text up to that character's first occurrence, or all of it |
| PyStrings.SplitJoin | flask_svelte/main.py:143-145 | joining the pieces of `s.split(sep)` with `sep` gives `s` back |
| PyStrings.SplitCharCount | flask_svelte/main.py:143-143 | `s.split(c)` has a second piece exactly when `c` occurs in `s`, so `split("=")[1]` exists exactly when the line has an `=` |
| PyStrings.SplitCharPiecesAvoid | flask_svelte/main.py:143-145 | no piece of a split on a character contains that character, and every piece's characters come from the text |
| PyStrings.JoinSplitChar | flask_svelte/main.py:145-145 | splitting a join on a character that no part contains gives the parts back |
| PyStrings.Strip | flask_svelte/main.py:143-148 | the result is trimmed; `StripDropsSpace`, `StripChars` and `StripPadded` state what it keeps |
| PyStrings.StripDropsSpace | flask_svelte/main.py:143-144 | `strip()` keeps a contiguous middle of the text and what it drops at both ends is whitespace |
| PyStrings.StripPadded | flask_svelte/main.py:143-148 | `strip()` of whitespace + trimmed core + whitespace is the core |
| PyStrings.StripAllSpace | flask_svelte/main.py:145-148 | `strip()` of whitespace only is empty |
| PyStrings.DropEnds | flask_svelte/main.py:145-145 | `s[1:-1]` is `s` minus its first and last character, and empty when `s` has fewer than two |
| RollupConfig.ParseApps | flask_svelte/main.py:143-150 | the parse succeeds exactly when the line has an `=` (otherwise the `IndexError`), and every name it returns is non-empty, trimmed and free of `,` `;` `=` `'` `"` |
| RollupConfig.SecondPiece | flask_svelte/main.py:143-143 | `line.split("=")[1]` is what follows the line's first `=`, up to the next `=` or the end of the line, and holds no `=` |
| RollupConfig.SecondPieceOf | flask_svelte/main.py:143-143 | for a line given as a head without `=`, the `=` and the rest, the second piece is the start of the rest up to its first `=` |
| RollupConfig.ListText | flask_svelte/main.py:143-144 | the list text is trimmed, holds no `;` and only characters of the right-hand side; without a `;` it is exactly the stripped right-hand side |
| RollupConfig.ListTextPadded | flask_svelte/main.py:143-144 | whitespace, a trimmed list without `;`, whitespace, `;`, whitespace: the list text is exactly that list |
| RollupConfig.ListElements | flask_svelte/main.py:145-145 | there is at least one element, none holds a `,`, and joined back with `,` they give the stripped text between the first and last character |
| RollupConfig.ElementName | flask_svelte/main.py:148-148 | an element with its quotes removed and stripped is trimmed, quote-free, and made of the element's characters; an element without quotes gives just its strip |
| RollupConfig.ElementNames | flask_svelte/main.py:147-150 | no contract of its own: its meaning is stated by `NonEmptyImagesAll`, `NonEmptyImagesClean` and `WrittenLists.NamesWritten` |
| RollupConfig.NamesOf | flask_svelte/main.py:143-150 | the names read from a right-hand side are clean; which names they are is stated by `ElementsOfRendered` and `WrittenLists.ListNamesWritten` |
| RollupConfig.NonEmptyImagesAll | flask_svelte/main.py:147-150 | when no element yields an empty name, every name is kept, in element order |
| RollupConfig.NonEmptyImagesClean | flask_svelte/main.py:147-150 | empty names are discarded and the kept ones are clean |
| RollupConfig.EmptyListElements | flask_svelte/main.py:145-150 | `[]` leaves one empty element, which is discarded: no names |
| RollupConfig.QuoteAll | flask_svelte/main.py:152-152 | one quoted name per name; the quoting itself is stated by `QuotedShape` |
| RollupConfig.ListRepr | flask_svelte/main.py:152-152 | no contract of its own: its text is stated by `ListReprShape`, and `ParseSerialize` shows the parser reads it back |
| RollupConfig.SerializeApps | flask_svelte/main.py:152-152 | the rewritten line is itself a declaration, starts with `let svelte_apps = ` and ends with `;\n` |
| RollupConfig.RenderableSerialized | flask_svelte/main.py:143-152 | a line written from `repr`-safe names reads back as `repr`-safe names, so it can be updated again |
| RollupConfig.ParseRendered | flask_svelte/main.py:143-150 | whatever precedes the first `=`, a `repr`-rendered list of clean names after it parses back to exactly those names, in order |
| RollupConfig.ElementsOfRendered | flask_svelte/main.py:145-150 | the elements of a rendered list yield exactly the rendered names |
| RollupConfig.ParseSerialize | flask_svelte/main.py:143-152 | round trip: `ParseApps(SerializeApps(xs)) == xs` for clean, `repr`-safe names |
| RollupConfig.UpdateLine | flask_svelte/main.py:140-153 | a line not starting with `let svelte_apps` is returned unchanged; a declaration is rewritten exactly when it has an `=` and fails otherwise; the rewritten line is a declaration with the fixed head and `;\n` tail |
| RollupConfig.UpdateLineAppends | flask_svelte/main.py:146-152 | the rewritten declaration parses to the old names followed by the new one, even when already present |
| RollupConfig.UpdateLineRenderable | flask_svelte/main.py:140-153 | updating a line with a `repr`-safe name leaves a line that can be updated again |
| RollupConfig.IndentedLineKept | flask_svelte/main.py:142-142 | a line starting with whitespace is never treated as a declaration |
| RollupConfig.UpdateEach | flask_svelte/main.py:139-153 | the loop succeeds exactly when every line's update does, keeps the line count, and puts each line's update at its position |
| RollupConfig.UpdateRollupConfig | flask_svelte/main.py:136-155 | the update succeeds exactly when every declaration has an `=`, keeps the number of lines and returns every other line byte-identical |
| RollupConfig.UpdateRollupConfigEach | flask_svelte/main.py:140-153 | line `i` of the result is the update of line `i`, so every declaration is rewritten, not only the first |
| RollupConfig.UpdatedRenderable | flask_svelte/main.py:136-155 | when every declaration has an `=`, the update succeeds and leaves a configuration that can be updated again |
| RollupConfig.UpdateKeepsAndAppends | flask_svelte/main.py:140-153 | one update appends the name to every declaration's list, keeps every other line, and leaves a configuration that can be updated again |
| RollupConfig.ComposeAppends | flask_svelte/main.py:146-151 | two updates in a row append their names in call order |
| RollupConfig.RegisteredAppends | flask_svelte/main.py:146-151 | any step that appends its name, repeated, appends all the names in call order |
| RollupConfig.RegisteredRenders | flask_svelte/main.py:146-152 | a step that re-renders a list with its name appended, repeated, renders the list with all the names appended |
| RollupConfig.RegisterAll | flask_svelte/main.py:132-155 | no contract of its own: successive updates for `repr`-safe names, stopping at the first failure; `RegisterAllAppends` states what they produce |
| RollupConfig.RegisterAllAppends | flask_svelte/main.py:132-155 | k successive `update_rollup_config` runs leave every declaration listing its old names followed by the k new ones in call order, duplicates included, and every other line untouched |
| ConfigFile.Concat | flask_svelte/main.py:155-155 | no contract of its own: `writelines`; `ConcatReadLines` and `ReadLinesConcat` state it inverts `readlines` |
| WrittenLists.ParseWritten | flask_svelte/main.py:143-150 | a hand-written declaration (any head without `=`, whitespace, a bracketed list of single- or double-quoted clean names and blank elements, whitespace, `;`, whitespace) parses to the names it quotes, in order |
| WrittenLists.RightHandSideWritten | flask_svelte/main.py:143-143 | the whole text after the `=` of a hand-written declaration is its right-hand side |
| WrittenLists.ListTextWritten | flask_svelte/main.py:143-144 | its list text is the bracketed list, brackets included |
| WrittenLists.ListElementsWritten | flask_svelte/main.py:145-145 | its elements are the written elements, the first without its leading and the last without its trailing whitespace |
| WrittenLists.StripJoined | flask_svelte/main.py:145-145 | stripping the inside of the brackets trims only the first and last element |
| WrittenLists.WrittenElementName | flask_svelte/main.py:148-148 | a quoted element gives its name, whichever quotes it uses; a blank element gives nothing |
| WrittenLists.NamesWritten | flask_svelte/main.py:147-150 | the non-empty element names are the quoted names, in order |
| WrittenLists.ListNamesWritten | flask_svelte/main.py:145-150 | the names read from a hand-written list are the names it quotes, in order |
| WrittenLists.EndsListed | flask_svelte/main.py:145-150 | trimming the first and last element drops no name |
| WrittenLists.DoubleQuoted | flask_svelte/main.py:148-148 | `let svelte_apps = ["<name>"];` parses to the one name, as with single quotes |
| WrittenLists.TrailingComma | flask_svelte/main.py:145-150 | `let svelte_apps = ['<a>', '<b>',];` parses to the two names: the blank element after the trailing comma adds nothing |
| ConfigFile.LineLength | flask_svelte/main.py:137-138 | the first line of a text runs up to and including its first newline, or to the end |
| ConfigFile.ReadLines | flask_svelte/main.py:137-138 | `readlines()` returns non-empty lines, each ending in a newline except possibly the last |
| ConfigFile.ConcatReadLines | flask_svelte/main.py:137-155 | `writelines(readlines(t))` writes `t` back byte for byte |
| ConfigFile.ReadLinesConcat | flask_svelte/main.py:137-155 | reading back written lines gives the same lines |
| ConfigFile.UpdateConfigText | flask_svelte/main.py:136-155 | the file is written back exactly when every declaration line has an `=` |
| ConfigFile.NoDeclarationUnchanged | flask_svelte/main.py:136-155 | a file without a declaration line is written back unchanged |
| ConfigFile.SerializedIsLine | flask_svelte/main.py:152-152 | a rewritten declaration is one line ending in a newline |
| ConfigFile.UpdatedLineIsLine | flask_svelte/main.py:140-153 | an updated line is still one line, and a rewritten declaration ends in a newline |
| ConfigFile.UpdatedTextRereads | flask_svelte/main.py:136-155 | reading the written file back gives exactly the updated lines, so the next `add_page` starts from them |
| Scenarios.SeedIsEmptyList | flask_svelte/data/sample-rollup.config.js:83-83 | the template's seed line is exactly what rendering no names writes |
| Scenarios.UpdateSerialized | flask_svelte/main.py:143-152 | updating a written declaration writes the old names followed by the new one |
| Scenarios.UpdateLineAll | flask_svelte/main.py:132-152 | no contract of its own: successive updates of one declaration line; `UpdateAllSerialized` and `RegisterFromSeed` state what they produce |
| Scenarios.UpdateAllSerialized | flask_svelte/main.py:132-152 | k registrations on a written declaration write the old names followed by the k new ones, in call order |
| Scenarios.RegisterFromSeed | flask_svelte/main.py:132-152 | from the seed declaration, k registrations leave a line listing exactly the k names in call order |
| Scenarios.ScenarioNamesRegistrable | flask_svelte/main.py:88-88 | `index` (registered by `create`) and `about` are names the model can register |
| Scenarios.CreateThenAddPage | flask_svelte/main.py:88-132 | `create` then one `add_page` of a new page on the seed line writes `let svelte_apps = ['<first>', '<second>'];\n` |
| Scenarios.DuplicateWrittenTwice | flask_svelte/main.py:146-152 | updating the configuration for an already listed page writes it twice |
| Scenarios.SerializeTwo | flask_svelte/main.py:152-152 | the line written for two names is `let svelte_apps = ['a', 'b'];\n` |

## Left out

- The `click` command wiring, `colorama` colouring and `print` output: user-interface plumbing with no effect on the files written.
- File reading and writing, `mkdir`, `touch_file`, `shutil.copytree` and `os.chdir`. The model takes the file's text, or its lines, as parameters and returns what would be written.
- The path layout computed in `create` and `add_page`. It only joins fixed directory names.
- The contents of the page template directory copied by `copytree`. The copy has no logic of this repository.
- Text-mode newline translation (`\r\n` to `\n`) and file encoding. The text is taken as already decoded, with `\n` line ends.
- Python's `repr` escaping of names containing quotes, backslashes or non-printable characters. Names to be written must be printable ASCII without `'`, `"` and `\`, which `repr` renders as `'name'`.
- `dict` replacement maps are modelled as sequences of pairs in insertion order, the order `dict.items()` yields.
- `str.split` with an empty separator raises `ValueError`. `Split` requires a non-empty separator; the code only splits on `"="` and `","`.
- RollupConfig.UpdateLine: requires `Renderable(line)` (a declaration's parsed names are `repr`-safe), because `repr` escaping is not modelled. For a line holding other names, the result is left unspecified.
- RollupConfig.UpdateRollupConfig: requires every line to be `Renderable`, for the same reason.
- RollupConfig.ParseApps: its contract gives the success condition and the shape of the names. The exact names are pinned for declarations the tool writes (`ParseRendered`, `ParseSerialize`) and for hand-written ones of the `WrittenLists.ParseWritten` form. Lines outside that form have no lemma for their exact names: text between `]` and `;`, no `;`, a second `=`, a `;` or `,` inside quotes, mismatched quotes, names that are not clean.
- RollupConfig.ListText: pinned exactly only for a right-hand side without `;` and for the form list, whitespace, `;`, whitespace (`ListTextPadded`). For a `;` elsewhere it only states the shape.
- RollupConfig.ElementName: exact for an element without quotes, and for a clean name in matching quotes with whitespace around (`WrittenLists.WrittenElementName`). For other quoted text it only states that the result is trimmed, quote-free and drawn from the element's characters.
- PyStrings.ReplaceCharRemovesAll: the "no occurrence of the key remains" promise is proved for one-character keys only, because for longer keys it is false (`PyStrings.ReplaceMayLeaveKey`).
- PyStrings.InsertEverywhere: replacing an empty key is stated only by its length and its leading value; the tool never uses an empty key.
- Scenarios.CreateThenAddPage: stated for any two registrable names rather than the literal `index` and `about`; `ScenarioNamesRegistrable` shows that both qualify.
- Registrations in a row are modelled for a configuration whose updates all succeed and for a single declaration line (`Scenarios.UpdateLineAll`). A failing registration in the middle of a sequence is not modelled separately: it stops the sequence, as the `IndexError` would stop `add_page`.
- RollupConfig.RegisterAll: models `update_rollup_config` run once per name. `add_page` runs `copytree` first, and that fails for a page whose directory already exists, so a name repeated in `names` models a repeated configuration update, not a repeated `add_page` call. The directory check is file-system state and is not modelled.

=== FILE: config_file.dfy ===
/** The configuration file as text. `update_rollup_config` reads the file
    with `readlines()`, which cuts the text after every newline, and writes
    the updated lines back with `writelines()`, which concatenates them. */
module ConfigFile {
  import opened Results
  import opened RollupConfig

  // ---------------------------------------------------------------------
  // readlines and writelines

  /** A line as `readlines()` hands it out: non-empty, with a newline at
      most as its last character. */
  predicate IsLine(line: string)
  {
    line != [] && '\n' !in line[..|line| - 1]
  }

  /** Lines `readlines()` can return: every line but the last ends in a
      newline. */
  predicate WellFormedLines(lines: seq<string>)
  {
    forall i | 0 <= i < |lines| ::
      IsLine(lines[i]) && (i < |lines| - 1 ==> lines[i][|lines[i]| - 1] == '\n')
  }

  /** `writelines(lines)`: the lines written one after another, nothing added. */
  function Concat(lines: seq<string>): string
    decreases |lines|
  {
    if lines == [] then [] else lines[0] + Concat(lines[1..])
  }

  /** The length of the first line of a non-empty text: up to and including
      the first newline, or the whole text when it has none. */
  function LineLength(text: string): (n: nat)
    requires text != []
    ensures 1 <= n <= |text|
    ensures '\n' !in text[..n - 1]
    ensures n < |text| ==> text[n - 1] == '\n'
    decreases |text|
  {
    if text[0] == '\n' || |text| == 1 then 1
    else
      var n := 1 + LineLength(text[1..]);
      assert text[..n - 1] == [text[0]] + text[1..][..n - 2];
      n
  }

  /** `readlines()`: the text cut after every newline; a last piece without
      a newline is a line of its own, and an empty text has no lines. */
  function ReadLines(text: string): (lines: seq<string>)
    ensures WellFormedLines(lines)
    decreases |text|
  {
    if text == [] then []
    else
      var n := LineLength(text);
      var rest := ReadLines(text[n..]);
      assert forall i | 1 <= i < |rest| + 1 :: ([text[..n]] + rest)[i] == rest[i - 1];
      [text[..n]] + rest
  }

  /** Writing back what was read gives the text back. */
  lemma {:induction false} ConcatReadLines(text: string)
    ensures Concat(ReadLines(text)) == text
    decreases |text|
  {
    if text != [] {
      var n := LineLength(text);
      ConcatReadLines(text[n..]);
      var lines := ReadLines(text);
      assert lines[1..] == ReadLines(text[n..]);
      assert text[..n] + text[n..] == text;
    }
  }

  /** The first line of `line + rest` is `line`, when `line` is a line that
      ends in a newline or nothing follows it. */
  lemma LineLengthOf(line: string, rest: string)
    requires IsLine(line)
    requires rest == [] || line[|line| - 1] == '\n'
    ensures LineLength(line + rest) == |line|
    decreases |line|
  {
    var text := line + rest;
    if |line| > 1 {
      assert text[0] == line[0] && line[0] != '\n' by {
        assert line[0] == line[..|line| - 1][0];
      }
      assert IsLine(line[1..]) by {
        assert line[1..][..|line| - 2] == line[..|line| - 1][1..];
      }
      LineLengthOf(line[1..], rest);
      assert text[1..] == line[1..] + rest;
    }
  }

  /** Reading back what was written gives the lines back, when they are
      lines `readlines()` can have produced. */
  lemma {:induction false} ReadLinesConcat(lines: seq<string>)
    requires WellFormedLines(lines)
    ensures ReadLines(Concat(lines)) == lines
    decreases |lines|
  {
    if lines != [] {
      var first := lines[0];
      var rest := lines[1..];
      assert WellFormedLines(rest) by {
        forall i | 0 <= i < |rest|
          ensures IsLine(rest[i]) && (i < |rest| - 1 ==> rest[i][|rest[i]| - 1] == '\n')
        {
          assert rest[i] == lines[i + 1];
        }
      }
      ReadLinesConcat(rest);
      assert IsLine(first);
      if rest != [] {
        assert first[|first| - 1] == '\n';
      } else {
        assert Concat(rest) == [];
      }
      LineLengthOf(first, Concat(rest));
      var text := first + Concat(rest);
      assert Concat(lines) == text;
      assert text[..|first|] == first && text[|first|..] == Concat(rest);
      assert [first] + rest == lines;
    }
  }

  // ---------------------------------------------------------------------
  // the update on the file's text

  /** `update_rollup_config` on the file's text: the lines read, updated one
      by one, and written back only when every line could be updated. */
  function UpdateConfigText(text: string, name: string): (r: Result<string, ParseError>)
    requires ReprSafe(name) && AllRenderable(ReadLines(text))
    ensures r.Success? <==> DeclarationsParse(ReadLines(text))
  {
    var updated :- UpdateRollupConfig(ReadLines(text), name);
    Success(Concat(updated))
  }

  /** A file without a declaration is written back byte for byte. */
  lemma NoDeclarationUnchanged(text: string, name: string)
    requires ReprSafe(name) && AllRenderable(ReadLines(text))
    requires forall i | 0 <= i < |ReadLines(text)| :: !IsDeclaration(ReadLines(text)[i])
    ensures UpdateConfigText(text, name) == Success(text)
  {
    var lines := ReadLines(text);
    assert DeclarationsParse(lines);
    var updated := UpdateRollupConfig(lines, name).value;
    assert updated == lines;
    ConcatReadLines(text);
  }

  /** The written line of a declaration is a single line ending in a newline. */
  lemma SerializedIsLine(names: seq<string>)
    requires AllReprSafe(names)
    ensures IsLine(SerializeApps(names))
    ensures SerializeApps(names)[|SerializeApps(names)| - 1] == '\n'
  {
    var quoted := QuoteAll(names);
    forall i | 0 <= i < |quoted|
      ensures '\n' !in quoted[i]
    {
      QuotedShape(names, i);
      assert ReprSafe(names[i]);
    }
    PyStrings.JoinAvoids(quoted, ", ", '\n');
    var line := SerializeApps(names);
    assert line[..|line| - 1] == RenderedHead + ListRepr(names) + ";";
  }

  /** An updated line is still a line, and a rewritten declaration ends in
      a newline. */
  lemma UpdatedLineIsLine(line: string, name: string)
    requires ReprSafe(name) && Renderable(line) && IsLine(line)
    requires UpdateLine(line, name).Success?
    ensures IsLine(UpdateLine(line, name).value)
    ensures IsDeclaration(line) ==> UpdateLine(line, name).value[|UpdateLine(line, name).value| - 1] == '\n'
    ensures !IsDeclaration(line) ==> UpdateLine(line, name).value == line
  {
    if IsDeclaration(line) {
      var names := ParseApps(line).value;
      AllReprSafeAppend(names, name);
      SerializedIsLine(names + [name]);
    }
  }

  /** Reading the written file back gives exactly the updated lines, so the
      next `add_page` starts from them. */
  lemma UpdatedTextRereads(text: string, name: string)
    requires ReprSafe(name) && AllRenderable(ReadLines(text))
    requires DeclarationsParse(ReadLines(text))
    ensures UpdateConfigText(text, name).Success?
    ensures ReadLines(UpdateConfigText(text, name).value) == UpdateRollupConfig(ReadLines(text), name).value
  {
    var lines := ReadLines(text);
    var updated := UpdateRollupConfig(lines, name).value;
    forall i | 0 <= i < |updated|
      ensures IsLine(updated[i]) && (i < |updated| - 1 ==> updated[i][|updated[i]| - 1] == '\n')
    {
      UpdateRollupConfigEach(lines, name, i);
      assert Renderable(lines[i]) && IsLine(lines[i]);
      UpdatedLineIsLine(lines[i], name);
    }
    ReadLinesConcat(updated);
  }
}

=== FILE: pystrings.dfy ===
/** The few pieces of Python's `str` that the scaffolding tool relies on:
    `strip()`, `split(sep)`, `sep.join(parts)`, `replace(key, value)` and the
    slice `s[1:-1]`. (The `startswith` test is `RollupConfig.IsDeclaration`.) Strings are sequences of code points. */
module PyStrings {

  /** `str.isspace()` on one code point: the characters CPython's
      argument-less `strip()` removes. */
  predicate IsSpace(c: char)
  {
    || c == ' '
    || '\t' <= c <= '\r'
    || '\U{1C}' <= c <= '\U{1F}'
    || c == '\U{85}' || c == '\U{A0}' || c == '\U{1680}'
    || '\U{2000}' <= c <= '\U{200A}'
    || c == '\U{2028}' || c == '\U{2029}' || c == '\U{202F}' || c == '\U{205F}'
    || c == '\U{3000}'
  }

  predicate AllSpace(s: string)
  {
    forall i | 0 <= i < |s| :: IsSpace(s[i])
  }

  /** Neither end of `s` is whitespace: what `strip()` leaves behind. */
  predicate Trimmed(s: string)
  {
    s == [] || (!IsSpace(s[0]) && !IsSpace(s[|s| - 1]))
  }

  /** Every character of `r` also occurs in `s`. */
  predicate CharsFrom(r: string, s: string)
  {
    forall c | c in r :: c in s
  }

  /** `key` occurs in `s` as a substring (Python's `key in s`). */
  predicate Occurs(key: string, s: string)
    decreases |s|
  {
    key <= s || (s != [] && Occurs(key, s[1..]))
  }

  // ---------------------------------------------------------------------
  // strip

  /** `str.lstrip()`: a suffix of `s` that does not start with whitespace. */
  function TrimStart(s: string): (r: string)
    ensures |r| <= |s| && r == s[|s| - |r|..]
    ensures r == [] || !IsSpace(r[0])
    decreases |s|
  {
    if s != [] && IsSpace(s[0]) then TrimStart(s[1..]) else s
  }

  /** What `lstrip()` drops is whitespace only. */
  lemma {:induction false} TrimStartDropsSpace(s: string)
    ensures AllSpace(s[..|s| - |TrimStart(s)|])
    decreases |s|
  {
    if s != [] && IsSpace(s[0]) {
      TrimStartDropsSpace(s[1..]);
      var k := |s| - |TrimStart(s)|;
      forall i | 0 <= i < k
        ensures IsSpace(s[i])
      {
        if i > 0 {
          assert s[i] == s[1..][..k - 1][i - 1];
        }
      }
    }
  }

  /** `str.rstrip()`: a prefix of `s` that does not end with whitespace. */
  function TrimEnd(s: string): (r: string)
    ensures |r| <= |s| && r == s[..|r|]
    ensures r == [] || !IsSpace(r[|r| - 1])
    decreases |s|
  {
    if s != [] && IsSpace(s[|s| - 1]) then TrimEnd(s[..|s| - 1]) else s
  }

  /** What `rstrip()` drops is whitespace only. */
  lemma {:induction false} TrimEndDropsSpace(s: string)
    ensures AllSpace(s[|TrimEnd(s)|..])
    decreases |s|
  {
    if s != [] && IsSpace(s[|s| - 1]) {
      var t := s[..|s| - 1];
      TrimEndDropsSpace(t);
      var k := |TrimEnd(s)|;
      forall i | k <= i < |s|
        ensures IsSpace(s[i])
      {
        if i < |s| - 1 {
          assert s[i] == t[k..][i - k];
        }
      }
    }
  }

  /** `lstrip()` empties a string of whitespace. */
  lemma {:induction false} TrimStartAllSpace(s: string)
    requires AllSpace(s)
    ensures TrimStart(s) == []
    decreases |s|
  {
    if s != [] {
      assert IsSpace(s[0]);
      assert AllSpace(s[1..]) by {
        assert forall i | 0 <= i < |s| - 1 :: s[1..][i] == s[i + 1];
      }
      TrimStartAllSpace(s[1..]);
    }
  }

  /** `rstrip()` empties a string of whitespace. */
  lemma {:induction false} TrimEndAllSpace(s: string)
    requires AllSpace(s)
    ensures TrimEnd(s) == []
    decreases |s|
  {
    if s != [] {
      assert IsSpace(s[|s| - 1]);
      assert AllSpace(s[..|s| - 1]) by {
        assert forall i | 0 <= i < |s| - 1 :: s[..|s| - 1][i] == s[i];
      }
      TrimEndAllSpace(s[..|s| - 1]);
    }
  }

  /** `str.strip()`. */
  function Strip(s: string): (r: string)
    ensures Trimmed(r)
  {
    var t := TrimStart(s);
    var r := TrimEnd(t);
    assert Trimmed(r) by {
      if r != [] {
        assert r[0] == t[0];
      }
    }
    r
  }

  /** `strip()` removes whitespace at both ends and nothing else. */
  lemma StripDropsSpace(s: string)
    ensures Strip(s) == s[|s| - |TrimStart(s)|..][..|Strip(s)|]
    ensures AllSpace(s[..|s| - |TrimStart(s)|]) && AllSpace(TrimStart(s)[|Strip(s)|..])
  {
    TrimStartDropsSpace(s);
    TrimEndDropsSpace(TrimStart(s));
  }

  /** `strip()` empties a string of whitespace. */
  lemma StripAllSpace(s: string)
    requires AllSpace(s)
    ensures Strip(s) == []
  {
    TrimStartAllSpace(s);
  }

  /** `strip()` only removes characters. */
  lemma StripChars(s: string)
    ensures CharsFrom(Strip(s), s)
  {
    var t := TrimStart(s);
    var r := TrimEnd(t);
    assert r == s[|s| - |t|..][..|r|];
    assert forall c | c in r :: c in s;
  }

  /** `strip()` removes exactly the whitespace padding around a trimmed core. */
  lemma {:induction false} StripPadded(pre: string, core: string, post: string)
    requires AllSpace(pre) && AllSpace(post) && Trimmed(core)
    ensures Strip(pre + core + post) == core
  {
    var s := pre + core + post;
    if core == [] {
      assert s == pre + post;
      forall i | 0 <= i < |s|
        ensures IsSpace(s[i])
      {
        if i < |pre| {
          assert s[i] == pre[i];
        } else {
          assert s[i] == post[i - |pre|];
        }
      }
      StripAllSpace(s);
    } else {
      assert s == pre + (core + post);
      TrimStartPadded(pre, core + post);
      TrimEndPadded(core, post);
    }
  }

  /** `strip()` leaves a trimmed string alone. */
  lemma StripTrimmed(s: string)
    requires Trimmed(s)
    ensures Strip(s) == s
  {
    StripPadded([], s, []);
    assert [] + s + [] == s;
  }

  lemma {:induction false} TrimStartPadded(pre: string, rest: string)
    requires AllSpace(pre) && rest != [] && !IsSpace(rest[0])
    ensures TrimStart(pre + rest) == rest
    decreases |pre|
  {
    if pre != [] {
      var s := pre + rest;
      assert s[0] == pre[0] && IsSpace(pre[0]);
      assert s[1..] == pre[1..] + rest;
      assert AllSpace(pre[1..]) by {
        assert forall i | 0 <= i < |pre| - 1 :: pre[1..][i] == pre[i + 1];
      }
      TrimStartPadded(pre[1..], rest);
    } else {
      assert pre + rest == rest;
    }
  }

  lemma {:induction false} TrimEndPadded(rest: string, post: string)
    requires AllSpace(post) && rest != [] && !IsSpace(rest[|rest| - 1])
    ensures TrimEnd(rest + post) == rest
    decreases |post|
  {
    if post != [] {
      var s := rest + post;
      assert s[..|s| - 1] == rest + post[..|post| - 1];
      TrimEndPadded(rest, post[..|post| - 1]);
    } else {
      assert rest + post == rest;
    }
  }

  // ---------------------------------------------------------------------
  // join and split

  /** `sep.join(parts)`. */
  function Join(parts: seq<string>, sep: string): string
  {
    if |parts| == 0 then []
    else if |parts| == 1 then parts[0]
    else parts[0] + sep + Join(parts[1..], sep)
  }

  /** The position of the first occurrence of `c` in `s`, as `s.index(c)`
      returns it. */
  function FirstIndex(s: string, c: char): (i: nat)
    requires c in s
    ensures i < |s| && s[i] == c && c !in s[..i]
  {
    if s[0] == c then 0
    else
      assert c in s[1..] by { assert s == [s[0]] + s[1..]; }
      var j := FirstIndex(s[1..], c);
      assert s[..j + 1] == [s[0]] + s[1..][..j];
      j + 1
  }

  /** When `x` holds no `c`, the first `c` of `x + [c] + rest` is the one after `x`. */
  lemma {:induction false} FirstIndexAfter(x: string, c: char, rest: string)
    requires c !in x
    ensures c in x + [c] + rest
    ensures FirstIndex(x + [c] + rest, c) == |x|
    decreases |x|
  {
    var s := x + [c] + rest;
    assert s[|x|] == c;
    if x != [] {
      assert s[0] == x[0] != c;
      assert s[1..] == x[1..] + [c] + rest;
      FirstIndexAfter(x[1..], c, rest);
    }
  }

  /** `s.split(sep)` for a non-empty separator (Python raises ValueError on an
      empty one): the pieces between the non-overlapping occurrences of `sep`
      found left to right. There is always at least one piece. */
  function Split(s: string, sep: string): (parts: seq<string>)
    requires sep != []
    ensures |parts| >= 1
    decreases |s|
  {
    if sep <= s then [[]] + Split(s[|sep|..], sep)
    else if s == [] then [[]]
    else
      var rest := Split(s[1..], sep);
      [[s[0]] + rest[0]] + rest[1..]
  }

  lemma JoinExtendFirst(x: string, parts: seq<string>, sep: string)
    requires |parts| >= 1
    ensures Join([x + parts[0]] + parts[1..], sep) == x + Join(parts, sep)
  {
    if |parts| > 1 {
      assert ([x + parts[0]] + parts[1..])[1..] == parts[1..];
    }
  }

  /** Joining the pieces of a split with the same separator gives back the text. */
  lemma {:induction false} SplitJoin(s: string, sep: string)
    requires sep != []
    ensures Join(Split(s, sep), sep) == s
    decreases |s|
  {
    if sep <= s {
      var tail := s[|sep|..];
      SplitJoin(tail, sep);
      JoinEmptyFirst(Split(tail, sep), sep);
      assert s == sep + tail;
    } else if s != [] {
      var rest := Split(s[1..], sep);
      SplitJoin(s[1..], sep);
      JoinExtendFirst([s[0]], rest, sep);
      assert s == [s[0]] + s[1..];
    }
  }

  lemma JoinEmptyFirst(parts: seq<string>, sep: string)
    requires |parts| >= 1
    ensures Join([[]] + parts, sep) == sep + Join(parts, sep)
  {
    assert ([[]] + parts)[1..] == parts;
  }

  /** Splitting on a character splits exactly at its occurrences:
      one piece iff the character does not occur. */
  lemma {:induction false} SplitCharCount(s: string, c: char)
    ensures |Split(s, [c])| >= 2 <==> c in s
    decreases |s|
  {
    if [c] <= s {
      assert s[0] == c;
    } else if s == [] {
    } else {
      SplitCharCount(s[1..], c);
      assert s == [s[0]] + s[1..];
    }
  }

  lemma {:induction false} SplitCharAbsent(s: string, c: char)
    requires c !in s
    ensures Split(s, [c]) == [s]
    decreases |s|
  {
    if s != [] {
      assert s[0] != c;
      assert !([c] <= s);
      SplitCharAbsent(s[1..], c);
      assert s == [s[0]] + s[1..];
    }
  }

  /** A character-free head is the first piece of the split. */
  lemma {:induction false} SplitCharHead(x: string, c: char, rest: string)
    requires c !in x
    ensures Split(x + [c] + rest, [c]) == [x] + Split(rest, [c])
    decreases |x|
  {
    var s := x + [c] + rest;
    if x == [] {
      assert [c] <= s;
      assert s[1..] == rest;
    } else {
      assert s[0] == x[0] != c;
      assert !([c] <= s);
      assert s[1..] == x[1..] + [c] + rest;
      SplitCharHead(x[1..], c, rest);
      assert [x[0]] + x[1..] == x;
    }
  }

  /** No piece of a split on a character contains that character. */
  lemma {:induction false} SplitCharPiecesAvoid(s: string, c: char)
    ensures forall i | 0 <= i < |Split(s, [c])| :: c !in Split(s, [c])[i]
    ensures forall i | 0 <= i < |Split(s, [c])| :: CharsFrom(Split(s, [c])[i], s)
    decreases |s|
  {
    if [c] <= s {
      SplitCharPiecesAvoid(s[|[c]|..], c);
    } else if s == [] {
    } else {
      SplitCharPiecesAvoid(s[1..], c);
      assert s[0] != c;
    }
  }

  /** Splitting a join on a character that no part contains gives the parts back. */
  lemma {:induction false} JoinSplitChar(parts: seq<string>, c: char)
    requires |parts| >= 1
    requires forall i | 0 <= i < |parts| :: c !in parts[i]
    ensures Split(Join(parts, [c]), [c]) == parts
    decreases |parts|
  {
    if |parts| == 1 {
      SplitCharAbsent(parts[0], c);
    } else {
      JoinSplitChar(parts[1..], c);
      SplitCharHead(parts[0], c, Join(parts[1..], [c]));
      assert [parts[0]] + parts[1..] == parts;
    }
  }

  // ---------------------------------------------------------------------
  // replace

  /** `s.replace("", value)`: Python puts `value` before every character and
      once more at the end. */
  function InsertEverywhere(s: string, value: string): (r: string)
    ensures |r| == |s| + (|s| + 1) * |value|
    ensures value <= r
    decreases |s|
  {
    if s == [] then value
    else
      var rest := InsertEverywhere(s[1..], value);
      assert |rest| == |s| - 1 + |s| * |value|;
      value + [s[0]] + rest
  }

  /** `s.replace(key, value)` for a non-empty `key`: scans left to right and
      replaces each non-overlapping occurrence. */
  function ReplaceKey(s: string, key: string, value: string): string
    requires key != []
    decreases |s|
  {
    if key <= s then value + ReplaceKey(s[|key|..], key, value)
    else if s == [] then []
    else [s[0]] + ReplaceKey(s[1..], key, value)
  }

  /** `s.replace(key, value)`. */
  function ReplaceAll(s: string, key: string, value: string): string
  {
    if key == [] then InsertEverywhere(s, value) else ReplaceKey(s, key, value)
  }

  /** Python's identity `s.replace(k, v) == v.join(s.split(k))` for non-empty `k`:
      every piece between occurrences is kept, every non-overlapping occurrence,
      from the left, becomes `value`. */
  lemma {:induction false} ReplaceIsJoinOfSplit(s: string, key: string, value: string)
    requires key != []
    ensures ReplaceAll(s, key, value) == Join(Split(s, key), value)
    decreases |s|
  {
    if key <= s {
      var rest := Split(s[|key|..], key);
      ReplaceIsJoinOfSplit(s[|key|..], key, value);
      assert ([[]] + rest)[1..] == rest;
      assert Join([[]] + rest, value) == value + Join(rest, value);
    } else if s == [] {
    } else {
      var rest := Split(s[1..], key);
      ReplaceIsJoinOfSplit(s[1..], key, value);
      assert Split(s, key) == [[s[0]] + rest[0]] + rest[1..];
      assert ReplaceAll(s, key, value) == [s[0]] + Join(rest, value);
      JoinExtendFirst([s[0]], rest, value);
    }
  }

  /** Replacing a key by itself changes nothing. */
  lemma ReplaceBySelf(s: string, key: string)
    requires key != []
    ensures ReplaceAll(s, key, key) == s
  {
    ReplaceIsJoinOfSplit(s, key, key);
    SplitJoin(s, key);
  }

  /** Text in which a non-empty key does not occur is returned unchanged. */
  lemma {:induction false} ReplaceAbsent(s: string, key: string, value: string)
    requires key != [] && !Occurs(key, s)
    ensures ReplaceAll(s, key, value) == s
    decreases |s|
  {
    if s != [] {
      ReplaceAbsent(s[1..], key, value);
      assert s == [s[0]] + s[1..];
    }
  }

  /** A one-character key occurs exactly when the character does. */
  lemma {:induction false} OccursChar(c: char, s: string)
    ensures Occurs([c], s) <==> c in s
    decreases |s|
  {
    if s != [] {
      OccursChar(c, s[1..]);
      assert s == [s[0]] + s[1..];
    }
  }

  /** Replacing a single character distributes over concatenation. */
  lemma {:induction false} ReplaceCharConcat(a: string, b: string, c: char, value: string)
    ensures ReplaceAll(a + b, [c], value) == ReplaceAll(a, [c], value) + ReplaceAll(b, [c], value)
    decreases |a|
  {
    if a == [] {
      assert a + b == b;
    } else {
      var ab := a + b;
      assert ab[0] == a[0];
      assert ab[1..] == a[1..] + b;
      ReplaceCharConcat(a[1..], b, c, value);
      if a[0] == c {
        assert [c] <= ab && [c] <= a;
        assert ReplaceAll(ab, [c], value) == value + ReplaceAll(ab[1..], [c], value);
        assert ReplaceAll(a, [c], value) == value + ReplaceAll(a[1..], [c], value);
      } else {
        assert !([c] <= ab) && !([c] <= a);
        assert ReplaceAll(ab, [c], value) == [a[0]] + ReplaceAll(ab[1..], [c], value);
        assert ReplaceAll(a, [c], value) == [a[0]] + ReplaceAll(a[1..], [c], value);
      }
    }
  }

  /** What is left after replacing a character: the other characters of the
      text and the characters of the value. */
  lemma {:induction false} ReplaceCharChars(s: string, c: char, value: string)
    ensures forall d | d in ReplaceAll(s, [c], value) :: (d in s && d != c) || d in value
    decreases |s|
  {
    if s != [] {
      ReplaceCharChars(s[1..], c, value);
    }
  }

  /** Replacing a character by a value that lacks it leaves none of it. */
  lemma ReplaceCharRemovesAll(s: string, c: char, value: string)
    requires c !in value
    ensures !Occurs([c], ReplaceAll(s, [c], value))
  {
    ReplaceCharChars(s, c, value);
    OccursChar(c, ReplaceAll(s, [c], value));
  }

  /** For a key longer than one character that promise fails: removing "ab"
      from "aabb" joins an `a` and a `b` into a fresh "ab". */
  lemma ReplaceMayLeaveKey()
    ensures ReplaceAll("aabb", "ab", "") == "ab"
    ensures Occurs("ab", ReplaceAll("aabb", "ab", ""))
  {
    assert "aabb"[1] != "ab"[1];
    assert "aabb"[1..] == "abb";
    assert "ab" <= "abb";
    assert "abb"[2..] == "b";
    assert "b"[0] != "ab"[0];
    assert "b"[1..] == "";
    assert ReplaceKey("b", "ab", "") == "b";
    assert ReplaceKey("abb", "ab", "") == "b";
  }

  // ---------------------------------------------------------------------
  // slicing

  /** `s[1:-1]`: everything but the first and last character, and the empty
      string when there are fewer than two characters. */
  function DropEnds(s: string): (r: string)
    ensures |s| >= 2 ==> [s[0]] + r + [s[|s| - 1]] == s
    ensures |s| < 2 ==> r == []
    ensures CharsFrom(r, s)
  {
    if |s| >= 2 then s[1..|s| - 1] else []
  }

  /** A character absent from the separator and from every part is absent from the join. */
  lemma {:induction false} JoinAvoids(parts: seq<string>, sep: string, c: char)
    requires c !in sep
    requires forall i | 0 <= i < |parts| :: c !in parts[i]
    ensures c !in Join(parts, sep)
    decreases |parts|
  {
    if |parts| > 1 {
      JoinAvoids(parts[1..], sep, c);
    }
  }

  /** A join of non-empty parts begins with the first part's first character
      and ends with the last part's last character. */
  lemma {:induction false} JoinEnds(parts: seq<string>, sep: string)
    requires |parts| >= 1
    requires forall i | 0 <= i < |parts| :: parts[i] != []
    ensures Join(parts, sep) != []
    ensures Join(parts, sep)[0] == parts[0][0]
    ensures Join(parts, sep)[|Join(parts, sep)| - 1] == parts[|parts| - 1][|parts[|parts| - 1]| - 1]
    decreases |parts|
  {
    if |parts| > 1 {
      JoinEnds(parts[1..], sep);
    }
  }

  /** Each part with one space in front. */
  function SpaceEach(parts: seq<string>): (r: seq<string>)
    ensures |r| == |parts|
    decreases |parts|
  {
    if parts == [] then [] else [" " + parts[0]] + SpaceEach(parts[1..])
  }

  lemma {:induction false} SpaceEachIndex(parts: seq<string>, i: int)
    requires 0 <= i < |parts|
    ensures SpaceEach(parts)[i] == " " + parts[i]
    decreases i
  {
    if i > 0 {
      SpaceEachIndex(parts[1..], i - 1);
    }
  }

  /** Joining with ", " is joining with "," after putting a space in front of
      every part but the first. */
  lemma {:induction false} JoinCommaSpace(first: string, rest: seq<string>)
    ensures Join([first] + rest, ", ") == Join([first] + SpaceEach(rest), ",")
    decreases |rest|
  {
    if rest != [] {
      var tail := [rest[0]] + SpaceEach(rest[1..]);
      JoinCommaSpace(rest[0], rest[1..]);
      assert ([first] + rest)[1..] == rest;
      assert [rest[0]] + rest[1..] == rest;
      assert ([first] + SpaceEach(rest))[1..] == SpaceEach(rest);
      JoinExtendFirst(" ", tail, ",");
      assert [" " + tail[0]] + tail[1..] == SpaceEach(rest);
    }
  }
  /** `lstrip()` stops at the first non-blank character, whatever follows it. */
  lemma {:induction false} TrimStartConcat(a: string, b: string)
    requires b != [] && !IsSpace(b[0])
    ensures TrimStart(a + b) == TrimStart(a) + b
    decreases |a|
  {
    if a == [] {
      assert a + b == b;
    } else if IsSpace(a[0]) {
      assert (a + b)[1..] == a[1..] + b;
      TrimStartConcat(a[1..], b);
    }
  }

  /** `rstrip()` stops at the last non-blank character, whatever precedes it. */
  lemma {:induction false} TrimEndConcat(a: string, b: string)
    requires a != [] && !IsSpace(a[|a| - 1])
    ensures TrimEnd(a + b) == a + TrimEnd(b)
    decreases |b|
  {
    if b == [] {
      assert a + b == a;
    } else if IsSpace(b[|b| - 1]) {
      assert (a + b)[..|a + b| - 1] == a + b[..|b| - 1];
      TrimEndConcat(a, b[..|b| - 1]);
    }
  }

  /** Every character of `s` satisfies `p`. */
  predicate AllChars(s: string, p: char -> bool)
  {
    forall i | 0 <= i < |s| :: p(s[i])
  }

  lemma AllCharsConcat(a: string, b: string, p: char -> bool)
    requires AllChars(a, p) && AllChars(b, p)
    ensures AllChars(a + b, p)
  {
    forall i | 0 <= i < |a + b|
      ensures p((a + b)[i])
    {
      if i >= |a| {
        assert (a + b)[i] == b[i - |a|];
      }
    }
  }

  lemma AllCharsFrom(r: string, s: string, p: char -> bool)
    requires CharsFrom(r, s) && AllChars(s, p)
    ensures AllChars(r, p)
  {
    forall i | 0 <= i < |r|
      ensures p(r[i])
    {
      assert r[i] in s;
    }
  }

  /** A property every part and the separator share holds of the join. */
  lemma {:induction false} JoinAllChars(parts: seq<string>, sep: string, p: char -> bool)
    requires AllChars(sep, p)
    requires forall i | 0 <= i < |parts| :: AllChars(parts[i], p)
    ensures AllChars(Join(parts, sep), p)
    decreases |parts|
  {
    if |parts| > 1 {
      JoinAllChars(parts[1..], sep, p);
      AllCharsConcat(parts[0], sep, p);
      AllCharsConcat(parts[0] + sep, Join(parts[1..], sep), p);
    }
  }

  /** Joining one more part adds the separator and the part at the end. */
  lemma {:induction false} JoinLast(parts: seq<string>, x: string, sep: string)
    requires |parts| >= 1
    ensures Join(parts + [x], sep) == Join(parts, sep) + sep + x
    decreases |parts|
  {
    if |parts| > 1 {
      assert (parts + [x])[1..] == parts[1..] + [x];
      JoinLast(parts[1..], x, sep);
    } else {
      assert (parts + [x])[1..] == [x];
    }
  }

  /** The first piece of a split on one character is the longest prefix of
      the string that is free of that character. */
  lemma {:induction false} SplitFirstPiece(s: string, c: char)
    ensures Split(s, [c])[0] <= s && c !in Split(s, [c])[0]
    ensures |Split(s, [c])[0]| == |s| || s[|Split(s, [c])[0]|] == c
    decreases |s|
  {
    if [c] <= s {
      assert s[0] == c;
    } else if s != [] {
      var rest := Split(s[1..], [c]);
      SplitFirstPiece(s[1..], c);
      assert Split(s, [c])[0] == [s[0]] + rest[0];
      assert s == [s[0]] + s[1..];
    }
  }
}

=== FILE: results.dfy ===
/** A failure-compatible result type, used for the Python exceptions the
    modelled code can raise. */
module Results {

  datatype Result<+T, +E> = Success(value: T) | Failure(error: E) {

    predicate IsFailure() {
      Failure?
    }

    function PropagateFailure<U>(): Result<U, E>
      requires Failure?
    {
      Failure(error)
    }

    function Extract(): T
      requires Success?
    {
      value
    }
  }
}

=== FILE: rollup_config.dfy ===
/** `update_rollup_config`: the build configuration is a sequence of lines;
    every line that starts with `let svelte_apps` is parsed as a list of quoted
    page names, the new page name is appended, and the line is rewritten as
    `let svelte_apps = [...];` followed by a newline. Every other line passes
    through untouched. */
module RollupConfig {
  import opened Results
  import opened PyStrings

  /** The raw, untrimmed prefix that selects a declaration line. */
  const DeclPrefix: string := "let svelte_apps"

  /** What a rewritten declaration line starts and ends with. */
  const RenderedHead: string := "let svelte_apps = "
  const RenderedTail: string := ";\n"

  /** The `IndexError` raised by `line.split("=")[1]` when a declaration line
      holds no `=`; nothing is written back in that case. */
  datatype ParseError = NoEqualsSign

  predicate IsDeclaration(line: string)
  {
    DeclPrefix <= line
  }

  // ---------------------------------------------------------------------
  // names

  /** Characters that Python's `repr` of a string shows as themselves between
      single quotes: printable ASCII other than the two quotes and backslash. */
  predicate ReprSafeChar(c: char)
  {
    ' ' <= c <= '~' && c != '\'' && c != '"' && c != '\\'
  }

  predicate ReprSafe(name: string)
  {
    forall i | 0 <= i < |name| :: ReprSafeChar(name[i])
  }

  predicate AllReprSafe(names: seq<string>)
  {
    forall i | 0 <= i < |names| :: ReprSafe(names[i])
  }

  /** Characters with a meaning in the declaration's syntax. */
  predicate IsListSyntax(c: char)
  {
    c == ',' || c == ';' || c == '=' || c == '\'' || c == '"'
  }

  /** A name as the parser hands it out: non-empty, without surrounding
      whitespace and without list syntax. */
  predicate CleanName(name: string)
  {
    name != [] && Trimmed(name) && forall i | 0 <= i < |name| :: !IsListSyntax(name[i])
  }

  predicate AllClean(names: seq<string>)
  {
    forall i | 0 <= i < |names| :: CleanName(names[i])
  }

  // ---------------------------------------------------------------------
  // serialising

  /** `repr(name)` for a name made of characters `repr` leaves alone. */
  function Quote(name: string): string
    requires ReprSafe(name)
  {
    "'" + name + "'"
  }

  function QuoteAll(names: seq<string>): (quoted: seq<string>)
    requires AllReprSafe(names)
    ensures |quoted| == |names|
    decreases |names|
  {
    if names == [] then [] else [Quote(names[0])] + QuoteAll(names[1..])
  }

  /** `repr(names)` for a list of strings: `[` + `", ".join(map(repr, names))` + `]`. */
  function ListRepr(names: seq<string>): string
    requires AllReprSafe(names)
  {
    "[" + Join(QuoteAll(names), ", ") + "]"
  }

  /** The line written back: the declaration head, the list's Python rendering,
      a semicolon and a newline. It is itself a declaration line, and it always
      ends in a newline, even when the line it replaces did not. */
  function SerializeApps(names: seq<string>): (line: string)
    requires AllReprSafe(names)
    ensures IsDeclaration(line)
    ensures RenderedHead <= line
    ensures |line| >= 2 && line[|line| - 2..] == RenderedTail
  {
    RenderedHead + ListRepr(names) + RenderedTail
  }

  // ---------------------------------------------------------------------
  // parsing

  /** One list element: every `"` and then every `'` removed, then stripped. */
  function ElementName(element: string): (name: string)
    ensures Trimmed(name)
    ensures '"' !in name && '\'' !in name
    ensures CharsFrom(name, element)
    ensures '"' !in element && '\'' !in element ==> name == Strip(element)
  {
    var noDouble := ReplaceAll(element, "\"", "");
    var noQuotes := ReplaceAll(noDouble, "'", "");
    ReplaceCharChars(element, '"', "");
    ReplaceCharChars(noDouble, '\'', "");
    StripChars(noQuotes);
    if '"' in element || '\'' in element then Strip(noQuotes)
    else
      OccursChar('"', element);
      ReplaceAbsent(element, "\"", "");
      OccursChar('\'', element);
      ReplaceAbsent(element, "'", "");
      Strip(noQuotes)
  }

  /** The images under `f` of `elements`, in order, with the empty ones
      dropped. */
  function NonEmptyImages(f: string -> string, elements: seq<string>): (images: seq<string>)
    ensures |images| <= |elements|
    decreases |elements|
  {
    if elements == [] then []
    else
      var image := f(elements[0]);
      (if image == [] then [] else [image]) + NonEmptyImages(f, elements[1..])
  }

  /** The names of the elements, in order, with the empty ones dropped. */
  function ElementNames(elements: seq<string>): seq<string>
  {
    NonEmptyImages(ElementName, elements)
  }

  /** The right-hand side of the declaration: stripped, every `;` removed,
      stripped again. */
  function ListText(rhs: string): (list: string)
    ensures Trimmed(list) && ';' !in list
    ensures CharsFrom(list, rhs) && CharsFrom(list, Strip(rhs))
    ensures ';' !in rhs ==> list == Strip(rhs)
  {
    var stripped := Strip(rhs);
    StripChars(rhs);
    ReplaceCharChars(stripped, ';', "");
    StripChars(ReplaceAll(stripped, ";", ""));
    if ';' in rhs then Strip(ReplaceAll(stripped, ";", ""))
    else
      assert ';' !in stripped;
      OccursChar(';', stripped);
      ReplaceAbsent(stripped, ";", "");
      StripTrimmed(stripped);
      Strip(ReplaceAll(stripped, ";", ""))
  }

  /** The list text with its first and last character (the brackets) dropped,
      stripped and split on `,`. */
  function ListElements(list: string): (elements: seq<string>)
    ensures |elements| >= 1
    ensures forall j | 0 <= j < |elements| :: ',' !in elements[j] && CharsFrom(elements[j], list)
    ensures Join(elements, ",") == Strip(DropEnds(list))
  {
    var inner := Strip(DropEnds(list));
    StripChars(DropEnds(list));
    SplitCharPiecesAvoid(inner, ',');
    SplitJoin(inner, ",");
    Split(inner, ",")
  }

  /** The text between the first and the second `=` of a line that has one:
      what follows the first `=`, up to the next `=` or to the end of the
      line. */
  function SecondPiece(line: string): (rhs: string)
    requires '=' in line
    ensures '=' !in rhs
    ensures var after := line[FirstIndex(line, '=') + 1..];
      rhs <= after && (|rhs| == |after| || after[|rhs|] == '=')
  {
    var i := FirstIndex(line, '=');
    var head, rest := line[..i], line[i + 1..];
    assert line == head + "=" + rest;
    SplitCharHead(head, '=', rest);
    SplitFirstPiece(rest, '=');
    Split(line, "=")[1]
  }

  /** The same, for a line given as a head without `=`, the `=`, and the rest. */
  lemma SecondPieceOf(head: string, rest: string)
    requires '=' !in head
    ensures '=' in head + "=" + rest
    ensures SecondPiece(head + "=" + rest) <= rest
    ensures |SecondPiece(head + "=" + rest)| == |rest| || rest[|SecondPiece(head + "=" + rest)|] == '='
  {
    FirstIndexAfter(head, '=', rest);
    assert (head + "=" + rest)[|head| + 1..] == rest;
  }

  /** The names listed on the right-hand side of a declaration. */
  function NamesOf(rhs: string): (names: seq<string>)
    requires '=' !in rhs
    ensures AllClean(names)
  {
    var list := ListText(rhs);
    var elements := ListElements(list);
    ElementsAvoidSyntax(rhs, list, elements);
    ElementNamesClean(elements);
    ElementNames(elements)
  }

  /** The pieces of the list text carry none of `,`, `;` and `=`. */
  lemma ElementsAvoidSyntax(rhs: string, list: string, elements: seq<string>)
    requires '=' !in rhs && ';' !in list && CharsFrom(list, rhs)
    requires forall j | 0 <= j < |elements| :: ',' !in elements[j] && CharsFrom(elements[j], list)
    ensures forall j | 0 <= j < |elements| :: ',' !in elements[j] && ';' !in elements[j] && '=' !in elements[j]
  {
    forall j | 0 <= j < |elements|
      ensures ';' !in elements[j] && '=' !in elements[j]
    {
      assert CharsFrom(elements[j], list);
    }
  }

  /** The parse of a declaration line: the text between the first and second
      `=` becomes the list text, whose elements give the names, empty ones
      dropped. A line without `=` is an error (`split("=")` then yields a
      single piece, and indexing piece 1 raises). */
  function ParseApps(line: string): (r: Result<seq<string>, ParseError>)
    ensures r.Success? <==> '=' in line
    ensures r.Success? ==> AllClean(r.value)
  {
    if '=' in line then Success(NamesOf(SecondPiece(line))) else Failure(NoEqualsSign)
  }

  /** When no image is empty, the images are kept one for one. */
  lemma {:induction false} NonEmptyImagesAll(f: string -> string, elements: seq<string>, images: seq<string>)
    requires |images| == |elements|
    requires forall i | 0 <= i < |elements| :: f(elements[i]) == images[i] && images[i] != []
    ensures NonEmptyImages(f, elements) == images
    decreases |elements|
  {
    if elements != [] {
      assert forall i | 0 <= i < |elements| - 1 :: elements[1..][i] == elements[i + 1] && images[1..][i] == images[i + 1];
      NonEmptyImagesAll(f, elements[1..], images[1..]);
      assert [images[0]] + images[1..] == images;
    }
  }

  /** When every non-empty image is clean, so are the kept images. */
  lemma {:induction false} NonEmptyImagesClean(f: string -> string, elements: seq<string>)
    requires forall i | 0 <= i < |elements| :: f(elements[i]) != [] ==> CleanName(f(elements[i]))
    ensures AllClean(NonEmptyImages(f, elements))
    decreases |elements|
  {
    if elements != [] {
      var rest := elements[1..];
      assert forall i | 0 <= i < |rest| :: rest[i] == elements[i + 1];
      NonEmptyImagesClean(f, rest);
      var image := f(elements[0]);
      var head: seq<string> := if image == [] then [] else [image];
      assert AllClean(head);
      AllCleanConcat(head, NonEmptyImages(f, rest));
    }
  }

  /** Elements free of `,`, `;` and `=` yield clean names. */
  lemma ElementNamesClean(elements: seq<string>)
    requires forall j | 0 <= j < |elements| :: ',' !in elements[j] && ';' !in elements[j] && '=' !in elements[j]
    ensures AllClean(ElementNames(elements))
  {
    forall i | 0 <= i < |elements| && ElementName(elements[i]) != []
      ensures CleanName(ElementName(elements[i]))
    {
      ElementNameClean(elements[i]);
    }
    NonEmptyImagesClean(ElementName, elements);
  }

  lemma {:induction false} ElementNameClean(element: string)
    requires ',' !in element && ';' !in element && '=' !in element
    requires ElementName(element) != []
    ensures CleanName(ElementName(element))
  {
    var name := ElementName(element);
    forall i | 0 <= i < |name|
      ensures !IsListSyntax(name[i])
    {
      ElementNameChar(element, name, name[i]);
    }
  }

  lemma ElementNameChar(element: string, name: string, c: char)
    requires ',' !in element && ';' !in element && '=' !in element
    requires name == ElementName(element) && c in name
    ensures !IsListSyntax(c)
  {
  }

  lemma AllCleanConcat(a: seq<string>, b: seq<string>)
    requires AllClean(a) && AllClean(b)
    ensures AllClean(a + b)
  {
    forall i | 0 <= i < |a + b|
      ensures CleanName((a + b)[i])
    {
      if i < |a| {
        assert (a + b)[i] == a[i];
      } else {
        assert (a + b)[i] == b[i - |a|];
      }
    }
  }

  /** When every image satisfies `q`, so does every kept image. */
  lemma {:induction false} NonEmptyImagesKeep(f: string -> string, elements: seq<string>, q: string -> bool)
    requires forall i | 0 <= i < |elements| :: q(f(elements[i]))
    ensures forall i | 0 <= i < |NonEmptyImages(f, elements)| :: q(NonEmptyImages(f, elements)[i])
    decreases |elements|
  {
    if elements != [] {
      var rest := elements[1..];
      assert forall i | 0 <= i < |rest| :: rest[i] == elements[i + 1];
      NonEmptyImagesKeep(f, rest, q);
      var image := f(elements[0]);
      var head: seq<string> := if image == [] then [] else [image];
      var images := head + NonEmptyImages(f, rest);
      assert forall i | 0 <= i < |images| :: images[i] == if i < |head| then image else NonEmptyImages(f, rest)[i - |head|];
    }
  }

  /** Characters `repr` writes for a list of repr-safe names: those of the
      names, the brackets, the separators and the single quotes. */
  predicate RenderedChar(c: char)
  {
    ReprSafeChar(c) || c == '\''
  }

  /** Rendered characters, the last of which may instead be whitespace. */
  predicate RenderedText(s: string)
  {
    forall i | 0 <= i < |s| :: RenderedChar(s[i]) || (i == |s| - 1 && IsSpace(s[i]))
  }

  lemma {:induction false} StripRendered(s: string)
    requires RenderedText(s)
    ensures AllChars(Strip(s), RenderedChar)
  {
    var t := TrimStart(s);
    var r := Strip(s);
    assert r == TrimEnd(t);
    forall j | 0 <= j < |r|
      ensures RenderedChar(r[j])
    {
      assert r[j] == t[j] == s[|s| - |t| + j];
      if j < |r| - 1 {
        assert |s| - |t| + j < |s| - 1;
      }
    }
  }

  /** Names read from a right-hand side of rendered characters are names
      `repr` writes back as plain quoted text. */
  lemma NamesOfRendered(rhs: string)
    requires '=' !in rhs && RenderedText(rhs)
    ensures AllReprSafe(NamesOf(rhs))
  {
    var list := ListText(rhs);
    var elements := ListElements(list);
    StripRendered(rhs);
    AllCharsFrom(list, Strip(rhs), RenderedChar);
    forall j | 0 <= j < |elements|
      ensures ReprSafe(ElementName(elements[j]))
    {
      var name := ElementName(elements[j]);
      AllCharsFrom(elements[j], list, RenderedChar);
      AllCharsFrom(name, elements[j], RenderedChar);
      forall i | 0 <= i < |name|
        ensures ReprSafeChar(name[i])
      {
        assert name[i] in name;
      }
    }
    NonEmptyImagesKeep(ElementName, elements, ReprSafe);
  }

  /** `repr` of a list of repr-safe names is made of rendered characters. */
  lemma ListReprRendered(names: seq<string>)
    requires AllReprSafe(names)
    ensures AllChars(ListRepr(names), RenderedChar)
  {
    var quoted := QuoteAll(names);
    forall i | 0 <= i < |quoted|
      ensures AllChars(quoted[i], RenderedChar)
    {
      QuotedShape(names, i);
      assert forall j | 0 <= j < |quoted[i]| :: quoted[i][j] == ("'" + names[i] + "'")[j];
    }
    JoinAllChars(quoted, ", ", RenderedChar);
    AllCharsConcat("[", Join(quoted, ", "), RenderedChar);
    AllCharsConcat("[" + Join(quoted, ", "), "]", RenderedChar);
  }

  /** Every line the update writes can be updated again: the names it reads
      back are repr-safe, whichever repr-safe names it was written with
      (clean or not). */
  lemma RenderableSerialized(names: seq<string>)
    requires AllReprSafe(names)
    ensures Renderable(SerializeApps(names))
  {
    var body := " " + ListRepr(names) + ";";
    var rest := body + "\n";
    SerializedShape(names);
    assert SerializeApps(names) == "let svelte_apps " + "=" + rest;
    SecondPieceOf("let svelte_apps ", rest);
    ListReprRendered(names);
    AllCharsConcat(" ", ListRepr(names), RenderedChar);
    AllCharsConcat(" " + ListRepr(names), ";", RenderedChar);
    var rhs := SecondPiece(SerializeApps(names));
    assert RenderedText(rhs) by {
      forall i | 0 <= i < |rhs|
        ensures RenderedChar(rhs[i]) || (i == |rhs| - 1 && IsSpace(rhs[i]))
      {
        assert rhs[i] == rest[i];
        if i < |body| {
          assert rest[i] == body[i];
        }
      }
    }
    NamesOfRendered(rhs);
  }

  // ---------------------------------------------------------------------
  // parse after serialise

  lemma ReprSafeAvoids(name: string)
    requires ReprSafe(name)
    ensures '"' !in name && '\'' !in name && '\\' !in name
  {
  }

  /** Removing quotes from a quoted clean name, with or without the space that
      followed its comma, and stripping, gives the name back. */
  lemma QuotedElementName(pad: string, name: string)
    requires pad == [] || pad == " "
    requires ReprSafe(name) && CleanName(name)
    ensures ElementName(pad + Quote(name)) == name
  {
    var e := pad + Quote(name);
    ReprSafeAvoids(name);
    assert e == pad + "'" + name + "'";
    OccursChar('"', e);
    ReplaceAbsent(e, "\"", "");
    assert ReplaceAll(e, "\"", "") == e;
    OccursChar('\'', pad);
    OccursChar('\'', name);
    ReplaceAbsent(pad, "'", "");
    ReplaceAbsent(name, "'", "");
    assert ReplaceAll("'", "'", "") == "" by {
      assert "'" <= "'";
      assert "'"[1..] == [];
    }
    ReplaceCharConcat(pad + "'" + name, "'", '\'', "");
    ReplaceCharConcat(pad + "'", name, '\'', "");
    ReplaceCharConcat(pad, "'", '\'', "");
    assert ReplaceAll(e, "'", "") == pad + name;
    StripPadded(pad, name, []);
    assert pad + name + [] == pad + name;
  }

  /** The text between the brackets of `ListRepr(names)`, split on ",", is the
      quoted names with the space after each comma. */
  lemma SplitRenderedList(names: seq<string>)
    requires |names| >= 1 && AllReprSafe(names) && AllClean(names)
    ensures Split(Join(QuoteAll(names), ", "), ",") == [Quote(names[0])] + SpaceEach(QuoteAll(names[1..]))
  {
    var quoted := QuoteAll(names);
    var pieces := [Quote(names[0])] + SpaceEach(QuoteAll(names[1..]));
    assert quoted == [Quote(names[0])] + QuoteAll(names[1..]);
    JoinCommaSpace(Quote(names[0]), QuoteAll(names[1..]));
    forall i | 0 <= i < |pieces|
      ensures ',' !in pieces[i]
    {
      QuotedPieceAvoidsComma(names, i);
    }
    JoinSplitChar(pieces, ',');
  }

  lemma {:induction false} QuotedPieceAvoidsComma(names: seq<string>, i: nat)
    requires |names| >= 1 && AllReprSafe(names) && AllClean(names)
    requires i < |names|
    ensures ',' !in ([Quote(names[0])] + SpaceEach(QuoteAll(names[1..])))[i]
    decreases i
  {
    assert ',' !in names[i] by {
      assert CleanName(names[i]);
    }
    if i == 0 {
    } else {
      QuotedPieceAvoidsCommaTail(names[1..], i - 1);
    }
  }

  lemma {:induction false} QuotedPieceAvoidsCommaTail(names: seq<string>, i: nat)
    requires AllReprSafe(names) && AllClean(names)
    requires i < |names|
    ensures ',' !in SpaceEach(QuoteAll(names))[i]
    decreases i
  {
    if i == 0 {
      assert CleanName(names[0]);
    } else {
      QuotedPieceAvoidsCommaTail(names[1..], i - 1);
    }
  }

  /** The rendered list holds no `=` or `;` and starts and ends with a bracket. */
  lemma ListReprShape(names: seq<string>)
    requires AllReprSafe(names) && AllClean(names)
    ensures '=' !in ListRepr(names) && ';' !in ListRepr(names)
    ensures Trimmed(ListRepr(names))
    ensures Trimmed(Join(QuoteAll(names), ", "))
  {
    var quoted := QuoteAll(names);
    forall c | c == '=' || c == ';'
      ensures c !in Join(quoted, ", ")
    {
      forall i | 0 <= i < |quoted|
        ensures c !in quoted[i]
      {
        QuotedAvoids(names, i, c);
      }
      JoinAvoids(quoted, ", ", c);
    }
    if names != [] {
      forall i | 0 <= i < |quoted|
        ensures quoted[i] != [] && quoted[i][0] == '\'' && quoted[i][|quoted[i]| - 1] == '\''
      {
        QuotedShape(names, i);
      }
      JoinEnds(quoted, ", ");
    }
  }

  lemma {:induction false} QuotedAvoids(names: seq<string>, i: nat, c: char)
    requires AllReprSafe(names) && AllClean(names) && i < |names|
    requires c == '=' || c == ';'
    ensures c !in QuoteAll(names)[i]
    decreases i
  {
    if i == 0 {
      assert CleanName(names[0]);
    } else {
      QuotedAvoids(names[1..], i - 1, c);
    }
  }

  lemma {:induction false} QuotedShape(names: seq<string>, i: nat)
    requires AllReprSafe(names) && i < |names|
    ensures QuoteAll(names)[i] == Quote(names[i])
    ensures QuoteAll(names)[i][0] == '\'' && QuoteAll(names)[i][|QuoteAll(names)[i]| - 1] == '\''
    decreases i
  {
    if i > 0 {
      QuotedShape(names[1..], i - 1);
    }
  }

  /** Whatever precedes the first `=`, a rendered list after it parses back to
      its names. */
  lemma ParseRendered(head: string, names: seq<string>)
    requires '=' !in head
    requires AllReprSafe(names) && AllClean(names)
    ensures ParseApps(head + "=" + " " + ListRepr(names) + RenderedTail) == Success(names)
  {
    var rest := " " + ListRepr(names) + RenderedTail;
    var line := head + "=" + rest;
    assert line == head + "=" + " " + ListRepr(names) + RenderedTail;
    RenderedRightHandSide(head, names);
    assert '=' in line;
    assert SecondPiece(line) == rest;
    ListTextOfRendered(names);
    ElementsOfRendered(names);
  }

  lemma RenderedRightHandSide(head: string, names: seq<string>)
    requires '=' !in head
    requires AllReprSafe(names) && AllClean(names)
    ensures Split(head + "=" + (" " + ListRepr(names) + RenderedTail), "=") == [head, " " + ListRepr(names) + RenderedTail]
  {
    var rest := " " + ListRepr(names) + RenderedTail;
    ListReprShape(names);
    assert '=' !in rest;
    SplitCharHead(head, '=', rest);
    SplitCharAbsent(rest, '=');
  }

  lemma ListTextOfRendered(names: seq<string>)
    requires AllReprSafe(names) && AllClean(names)
    ensures ListText(" " + ListRepr(names) + RenderedTail) == ListRepr(names)
  {
    ListReprShape(names);
    assert ListRepr(names)[0] == '[';
    ListTextOf(ListRepr(names));
  }

  /** A trimmed list text free of `;`, written after the `=` as the update
      writes it, is read back unchanged. */
  lemma ListTextOf(list: string)
    requires list != [] && Trimmed(list) && ';' !in list
    ensures ListText(" " + list + RenderedTail) == list
  {
    ListTextPadded(" ", list, [], "\n");
    RenderedTailParts(" " + list);
  }

  lemma RenderedTailParts(s: string)
    ensures s + [] + ";" + "\n" == s + RenderedTail
  {
    assert RenderedTail == ";" + "\n";
  }

  /** The right-hand side, stripped of whitespace and of its `;`, is the list
      text, whatever whitespace surrounds the list and the `;`. */
  lemma ListTextPadded(ws1: string, list: string, ws2: string, ws3: string)
    requires AllSpace(ws1) && AllSpace(ws2) && AllSpace(ws3)
    requires list != [] && Trimmed(list) && ';' !in list
    ensures ListText(ws1 + list + ws2 + ";" + ws3) == list
  {
    StripAroundList(ws1, list, ws2, ws3);
    SpaceAvoids(ws2);
    SemicolonRemoved(list + ws2);
    StripPadded([], list, ws2);
    assert [] + list + ws2 == list + ws2;
  }

  lemma StripAroundList(ws1: string, list: string, ws2: string, ws3: string)
    requires AllSpace(ws1) && AllSpace(ws3)
    requires list != [] && !IsSpace(list[0])
    ensures Strip(ws1 + list + ws2 + ";" + ws3) == list + ws2 + ";"
  {
    var core := list + ws2 + ";";
    assert ws1 + list + ws2 + ";" + ws3 == ws1 + core + ws3;
    assert core[0] == list[0] && core[|core| - 1] == ';';
    StripPadded(ws1, core, ws3);
  }

  /** Whitespace holds no list syntax. */
  lemma SpaceAvoids(s: string)
    requires AllSpace(s)
    ensures ',' !in s && ';' !in s && '=' !in s && '"' !in s && '\'' !in s
  {
  }

  /** Removing every `;` from the list and its `;` leaves the list. */
  lemma SemicolonRemoved(list: string)
    requires ';' !in list
    ensures ReplaceAll(list + ";", ";", "") == list
  {
    ReplaceCharConcat(list, ";", ';', "");
    OccursChar(';', list);
    ReplaceAbsent(list, ";", "");
    assert ReplaceAll(";", ";", "") == [] by {
      assert ";" <= ";";
      assert ";"[1..] == [];
    }
    assert list + [] == list;
  }

  lemma ElementsOfRendered(names: seq<string>)
    requires AllReprSafe(names) && AllClean(names)
    ensures ElementNames(ListElements(ListRepr(names))) == names
  {
    RenderedListElements(names);
    if names == [] {
      EmptyListElements();
    } else {
      ElementsOfQuoted(names);
    }
  }

  /** Between the brackets of a rendered list lie the quoted names joined by
      ", ", already stripped. */
  lemma RenderedListElements(names: seq<string>)
    requires AllReprSafe(names) && AllClean(names)
    ensures ListElements(ListRepr(names)) == Split(Join(QuoteAll(names), ", "), ",")
  {
    RenderedListBody(names);
    RenderedBodyStripped(names);
  }

  lemma RenderedListBody(names: seq<string>)
    requires AllReprSafe(names)
    ensures DropEnds(ListRepr(names)) == Join(QuoteAll(names), ", ")
  {
    var body := Join(QuoteAll(names), ", ");
    assert ListRepr(names) == "[" + body + "]";
  }

  lemma RenderedBodyStripped(names: seq<string>)
    requires AllReprSafe(names) && AllClean(names)
    ensures Strip(Join(QuoteAll(names), ", ")) == Join(QuoteAll(names), ", ")
  {
    ListReprShape(names);
    StripTrimmed(Join(QuoteAll(names), ", "));
  }

  lemma EmptyListElements()
    ensures ElementNames(Split([], ",")) == []
  {
    assert Split([], ",") == [[]];
    assert ElementName([]) == [] by {
      assert ReplaceAll([], "\"", "") == [];
      assert ReplaceAll([], "'", "") == [];
    }
  }

  lemma ElementsOfQuoted(names: seq<string>)
    requires |names| >= 1 && AllReprSafe(names) && AllClean(names)
    ensures ElementNames(Split(Join(QuoteAll(names), ", "), ",")) == names
  {
    var elements := [Quote(names[0])] + SpaceEach(QuoteAll(names[1..]));
    SplitRenderedList(names);
    forall i | 0 <= i < |elements|
      ensures ElementName(elements[i]) == names[i] && names[i] != []
    {
      QuotedElement(names, i);
    }
    NonEmptyImagesAll(ElementName, elements, names);
  }

  /** Element `i` of the split list text gives back name `i`. */
  lemma QuotedElement(names: seq<string>, i: int)
    requires |names| >= 1 && AllReprSafe(names) && AllClean(names)
    requires 0 <= i < |names|
    ensures ElementName(([Quote(names[0])] + SpaceEach(QuoteAll(names[1..])))[i]) == names[i]
  {
    var pad := if i == 0 then [] else " ";
    SplitElementShape(names, i);
    QuotedElementName(pad, names[i]);
  }

  /** Element `i` of the split list text is name `i` quoted, after a space
      unless it is the first. */
  lemma SplitElementShape(names: seq<string>, i: int)
    requires |names| >= 1 && AllReprSafe(names)
    requires 0 <= i < |names|
    ensures ([Quote(names[0])] + SpaceEach(QuoteAll(names[1..])))[i] == (if i == 0 then [] else " ") + Quote(names[i])
  {
    var elements := [Quote(names[0])] + SpaceEach(QuoteAll(names[1..]));
    if i == 0 {
      assert [] + Quote(names[0]) == elements[0];
    } else {
      var quoted := QuoteAll(names[1..]);
      assert elements[i] == SpaceEach(quoted)[i - 1];
      SpaceEachIndex(quoted, i - 1);
      QuotedShape(names[1..], i - 1);
      assert names[1..][i - 1] == names[i];
    }
  }

  /** Round trip: a serialised list of clean names parses back to the same
      names, in the same order and with the same multiplicity. */
  lemma ParseSerialize(names: seq<string>)
    requires AllReprSafe(names) && AllClean(names)
    ensures ParseApps(SerializeApps(names)) == Success(names)
  {
    SerializedShape(names);
    ParseRendered("let svelte_apps ", names);
  }

  lemma SerializedShape(names: seq<string>)
    requires AllReprSafe(names)
    ensures SerializeApps(names) == "let svelte_apps " + "=" + " " + ListRepr(names) + RenderedTail
  {
    assert RenderedHead == "let svelte_apps " + "=" + " ";
  }

  // ---------------------------------------------------------------------
  // updating

  /** A line whose names, should it be a declaration that parses, are all
      rendered by `repr` as plain quoted text. */
  predicate Renderable(line: string)
  {
    IsDeclaration(line) && ParseApps(line).Success? ==> AllReprSafe(ParseApps(line).value)
  }

  /** Appending a clean name to parsed names: the rewritten line parses to
      the old names followed by the new one. */
  lemma AppendName(names: seq<string>, name: string)
    requires AllClean(names) && AllReprSafe(names)
    requires ReprSafe(name) && CleanName(name)
    ensures AllReprSafe(names + [name])
    ensures ParseApps(SerializeApps(names + [name])) == Success(names + [name])
  {
    var extended := names + [name];
    AllCleanConcat(names, [name]);
    assert forall i | 0 <= i < |extended| :: extended[i] == if i < |names| then names[i] else name;
    ParseSerialize(extended);
  }

  lemma AllReprSafeAppend(names: seq<string>, name: string)
    requires AllReprSafe(names) && ReprSafe(name)
    ensures AllReprSafe(names + [name])
  {
    assert forall i | 0 <= i < |names + [name]| :: (names + [name])[i] == if i < |names| then names[i] else name;
  }

  /** One turn of the loop of `update_rollup_config`. A line that does not
      start with `let svelte_apps` is kept as is; a declaration is parsed, the
      name appended (even when already present) and the line rewritten, or the
      parse fails for want of `=`. */
  function UpdateLine(line: string, name: string): (r: Result<string, ParseError>)
    requires ReprSafe(name) && Renderable(line)
    ensures !IsDeclaration(line) ==> r == Success(line)
    ensures IsDeclaration(line) ==> (r.Success? <==> '=' in line)
    ensures r.Success? && IsDeclaration(line) ==>
      && IsDeclaration(r.value) && RenderedHead <= r.value
      && r.value[|r.value| - 2..] == RenderedTail
  {
    if IsDeclaration(line) then
      var names :- ParseApps(line);
      AllReprSafeAppend(names, name);
      Success(SerializeApps(names + [name]))
    else
      Success(line)
  }

  /** Updating a declaration with a clean name: the rewritten line parses to
      the old names followed by the new one (no deduplication), and can be
      updated again. */
  lemma UpdateLineAppends(line: string, name: string)
    requires ReprSafe(name) && CleanName(name) && Renderable(line)
    requires IsDeclaration(line) && '=' in line
    ensures UpdateLine(line, name).Success?
    ensures ParseApps(UpdateLine(line, name).value) == Success(ParseApps(line).value + [name])
    ensures Renderable(UpdateLine(line, name).value)
    ensures '=' in UpdateLine(line, name).value
  {
    var names := ParseApps(line).value;
    AppendName(names, name);
    assert UpdateLine(line, name).value == SerializeApps(names + [name]);
  }

  /** A successful update with any repr-safe name leaves a line that can be
      updated again. */
  lemma UpdateLineRenderable(line: string, name: string)
    requires ReprSafe(name) && Renderable(line)
    ensures UpdateLine(line, name).Success? ==> Renderable(UpdateLine(line, name).value)
  {
    if IsDeclaration(line) && '=' in line {
      var names := ParseApps(line).value;
      AllReprSafeAppend(names, name);
      assert UpdateLine(line, name).value == SerializeApps(names + [name]);
      RenderableSerialized(names + [name]);
    }
  }

  /** The prefix test is on the raw line: an indented declaration is not
      recognised and passes through unchanged. */
  lemma IndentedLineKept(line: string, name: string)
    requires ReprSafe(name) && Renderable(line)
    requires line != [] && IsSpace(line[0])
    ensures UpdateLine(line, name) == Success(line)
  {
    assert DeclPrefix[0] == 'l';
  }

  /** Every declaration line of the configuration holds an `=`. */
  predicate DeclarationsParse(lines: seq<string>)
  {
    forall i | 0 <= i < |lines| :: IsDeclaration(lines[i]) ==> '=' in lines[i]
  }

  predicate AllRenderable(lines: seq<string>)
  {
    forall i | 0 <= i < |lines| :: Renderable(lines[i])
  }

  /** The loop over the lines: `update` applied to each line in order, the
      results collected in order; the first failure aborts the loop. */
  function UpdateEach(update: string --> Result<string, ParseError>, lines: seq<string>): (r: Result<seq<string>, ParseError>)
    requires forall i | 0 <= i < |lines| :: update.requires(lines[i])
    ensures r.Success? <==> forall i | 0 <= i < |lines| :: update(lines[i]).Success?
    ensures r.Success? ==> |r.value| == |lines|
    ensures r.Success? ==> forall i | 0 <= i < |lines| :: update(lines[i]) == Success(r.value[i])
    decreases |lines|
  {
    if lines == [] then Success([])
    else
      var first :- update(lines[0]);
      assert forall i | 1 <= i < |lines| :: lines[i] == lines[1..][i - 1];
      var rest :- UpdateEach(update, lines[1..]);
      Success([first] + rest)
  }

  /** `update_rollup_config` on the lines of the configuration: every line is
      updated in order; a failing line aborts the whole update, so nothing is
      written back. */
  function UpdateRollupConfig(lines: seq<string>, name: string): (r: Result<seq<string>, ParseError>)
    requires ReprSafe(name) && AllRenderable(lines)
    ensures r.Success? <==> DeclarationsParse(lines)
    ensures r.Success? ==> |r.value| == |lines|
    ensures r.Success? ==> forall i | 0 <= i < |lines| && !IsDeclaration(lines[i]) :: r.value[i] == lines[i]
  {
    UpdateEach((line: string) requires ReprSafe(name) && Renderable(line) => UpdateLine(line, name), lines)
  }

  /** Line `i` of the result is what `UpdateLine` makes of line `i`. */
  lemma UpdateRollupConfigEach(lines: seq<string>, name: string, i: int)
    requires ReprSafe(name) && AllRenderable(lines) && DeclarationsParse(lines)
    requires 0 <= i < |lines|
    ensures UpdateRollupConfig(lines, name).Success?
    ensures UpdateLine(lines[i], name) == Success(UpdateRollupConfig(lines, name).value[i])
  {
  }

  /** `updated` is `lines` with `names` appended to the list of every
      declaration, as read by `parse`, and with every other line kept byte for
      byte. `parse` is `ParseApps` wherever this is used; taking it as a
      parameter keeps the parser's definition out of proofs that only
      compose such facts. */
  predicate AppendedTo(parse: string -> Result<seq<string>, ParseError>,
                       lines: seq<string>, updated: seq<string>, names: seq<string>)
  {
    && |updated| == |lines|
    && (forall i | 0 <= i < |lines| && !IsDeclaration(lines[i]) :: updated[i] == lines[i])
    && (forall i | 0 <= i < |lines| && IsDeclaration(lines[i]) ::
          && IsDeclaration(updated[i])
          && parse(lines[i]).Success?
          && parse(updated[i]) == Success(parse(lines[i]).value + names))
  }

  /** What the update does: same number of lines, every line that is not a
      declaration byte-identical, and every declaration rewritten so that it
      parses to its old names followed by the new one. */
  lemma UpdateKeepsAndAppends(lines: seq<string>, name: string)
    requires ReprSafe(name) && CleanName(name) && AllRenderable(lines)
    requires DeclarationsParse(lines)
    ensures UpdateRollupConfig(lines, name).Success?
    ensures AppendedTo(ParseApps, lines, UpdateRollupConfig(lines, name).value, [name])
    ensures AllRenderable(UpdateRollupConfig(lines, name).value)
    ensures DeclarationsParse(UpdateRollupConfig(lines, name).value)
  {
    var updated := UpdateRollupConfig(lines, name).value;
    forall i | 0 <= i < |lines|
      ensures Renderable(updated[i])
      ensures IsDeclaration(updated[i]) ==> '=' in updated[i]
      ensures !IsDeclaration(lines[i]) ==> updated[i] == lines[i]
      ensures IsDeclaration(lines[i]) ==> IsDeclaration(updated[i]) && ParseApps(lines[i]).Success?
      ensures IsDeclaration(lines[i]) ==> ParseApps(updated[i]) == Success(ParseApps(lines[i]).value + [name])
    {
      assert Renderable(lines[i]);
      assert UpdateLine(lines[i], name) == Success(updated[i]) by {
        UpdateRollupConfigEach(lines, name, i);
      }
      if IsDeclaration(lines[i]) {
        UpdateLineAppends(lines[i], name);
      }
    }
  }

  /** A name `add_page` can register: printable, quote-free and already in
      the form the parser returns. */
  predicate Registrable(name: string)
  {
    ReprSafe(name) && CleanName(name)
  }

  lemma RegistrableReprSafe()
    ensures forall name | Registrable(name) :: ReprSafe(name)
  {
  }

  /** `step` keeps `inv` for every name `ok` admits, whenever it succeeds. */
  ghost predicate StepClosed<S(!new)>(step: (S, string) --> Result<S, ParseError>, inv: S -> bool, ok: string -> bool)
  {
    forall state, name | inv(state) && ok(name) ::
      step.requires(state, name) && (step(state, name).Success? ==> inv(step(state, name).value))
  }

  /** `step` succeeds from every state `good` admits, lands in `good` again,
      and appends exactly its name, as read by `parse`. */
  ghost predicate StepAppends(step: (seq<string>, string) --> Result<seq<string>, ParseError>,
                              good: seq<string> -> bool, ok: string -> bool,
                              parse: string -> Result<seq<string>, ParseError>)
  {
    forall lines, name | good(lines) && ok(name) ::
      && step.requires(lines, name)
      && step(lines, name).Success?
      && good(step(lines, name).value)
      && AppendedTo(parse, lines, step(lines, name).value, [name])
  }

  /** Registrations in a row: `step` once per name, in order; the first
      failure ends the sequence. */
  function Registered<S(!new)>(step: (S, string) --> Result<S, ParseError>, inv: S -> bool, ok: string -> bool,
                         state: S, names: seq<string>): Result<S, ParseError>
    requires StepClosed(step, inv, ok)
    requires inv(state) && forall k | 0 <= k < |names| :: ok(names[k])
    decreases |names|
  {
    if names == [] then Success(state)
    else
      var next :- step(state, names[0]);
      Registered(step, inv, ok, next, names[1..])
  }

  /** Registrations in a row on a state that `render` draws from a list of
      names, when each step with a name `narrow` admits renders the list with
      its name appended: the result renders the list with all names appended,
      in order. */
  lemma {:induction false} RegisteredRenders<S(!new)>(step: (S, string) --> Result<S, ParseError>, inv: S -> bool,
                                                ok: string -> bool, narrow: string -> bool, render: seq<string> --> S,
                                                good: seq<string> -> bool, olds: seq<string>, names: seq<string>)
    requires StepClosed(step, inv, ok) && forall n | narrow(n) :: ok(n)
    requires forall ns | good(ns) :: render.requires(ns) && inv(render(ns))
    requires forall ns, name {:trigger ns + [name]} | good(ns) && narrow(name) ::
      && good(ns + [name]) && render.requires(ns + [name])
      && step.requires(render(ns), name) && step(render(ns), name) == Success(render(ns + [name]))
    requires good(olds) && forall k | 0 <= k < |names| :: narrow(names[k])
    ensures render.requires(olds + names)
    ensures Registered(step, inv, ok, render(olds), names) == Success(render(olds + names))
    decreases |names|
  {
    if names == [] {
      assert olds + names == olds;
    } else {
      var extended := olds + [names[0]];
      assert good(extended) && step(render(olds), names[0]) == Success(render(extended));
      RegisteredRenders(step, inv, ok, narrow, render, good, extended, names[1..]);
      assert extended + names[1..] == olds + names;
    }
  }

  /** A step that appends every name `narrow` admits, repeated with such
      names, appends all of them in order. */
  lemma {:induction false} RegisteredAppends(step: (seq<string>, string) --> Result<seq<string>, ParseError>,
                                             inv: seq<string> -> bool, good: seq<string> -> bool,
                                             ok: string -> bool, narrow: string -> bool,
                                             parse: string -> Result<seq<string>, ParseError>,
                                             lines: seq<string>, names: seq<string>)
    requires StepClosed(step, inv, ok) && StepAppends(step, good, narrow, parse)
    requires forall n | narrow(n) :: ok(n)
    requires forall ls | good(ls) :: inv(ls)
    requires good(lines) && forall k | 0 <= k < |names| :: narrow(names[k])
    requires forall i | 0 <= i < |lines| && IsDeclaration(lines[i]) :: parse(lines[i]).Success?
    ensures Registered(step, inv, ok, lines, names).Success?
    ensures AppendedTo(parse, lines, Registered(step, inv, ok, lines, names).value, names)
    decreases |names|
  {
    if names == [] {
      NothingAppended(parse, lines);
    } else {
      var next := step(lines, names[0]).value;
      assert forall i | 0 <= i < |next| && IsDeclaration(next[i]) :: parse(next[i]).Success?;
      RegisteredAppends(step, inv, good, ok, narrow, parse, next, names[1..]);
      ComposeAppends(parse, lines, next, Registered(step, inv, ok, next, names[1..]).value, names[0], names[1..]);
      assert [names[0]] + names[1..] == names;
    }
  }

  lemma NothingAppended(parse: string -> Result<seq<string>, ParseError>, lines: seq<string>)
    requires forall i | 0 <= i < |lines| && IsDeclaration(lines[i]) :: parse(lines[i]).Success?
    ensures AppendedTo(parse, lines, lines, [])
  {
    forall i | 0 <= i < |lines| && IsDeclaration(lines[i])
      ensures parse(lines[i]).value + [] == parse(lines[i]).value
    {
    }
  }

  /** The update keeps every line renderable for any repr-safe name and, from
      a configuration whose declarations all parse, appends a registrable name
      to each of them. */
  lemma UpdateSteps()
    ensures StepClosed(UpdateRollupConfig, AllRenderable, ReprSafe)
    ensures StepAppends(UpdateRollupConfig, ParsableConfig, Registrable, ParseApps)
  {
    forall lines, name | AllRenderable(lines) && ReprSafe(name)
      ensures UpdateRollupConfig(lines, name).Success? ==> AllRenderable(UpdateRollupConfig(lines, name).value)
    {
      if DeclarationsParse(lines) {
        UpdatedRenderable(lines, name);
      }
    }
    forall lines, name | ParsableConfig(lines) && Registrable(name)
      ensures UpdateRollupConfig(lines, name).Success?
      ensures ParsableConfig(UpdateRollupConfig(lines, name).value)
      ensures AppendedTo(ParseApps, lines, UpdateRollupConfig(lines, name).value, [name])
    {
      UpdateKeepsAndAppends(lines, name);
    }
  }

  lemma UpdatedRenderable(lines: seq<string>, name: string)
    requires ReprSafe(name) && AllRenderable(lines) && DeclarationsParse(lines)
    ensures UpdateRollupConfig(lines, name).Success?
    ensures AllRenderable(UpdateRollupConfig(lines, name).value)
  {
    var updated := UpdateRollupConfig(lines, name).value;
    forall i | 0 <= i < |lines|
      ensures Renderable(updated[i])
    {
      UpdateRollupConfigEach(lines, name, i);
      UpdateLineRenderable(lines[i], name);
    }
  }

  /** A configuration the update can be run on and whose every declaration
      has an `=`. */
  predicate ParsableConfig(lines: seq<string>)
  {
    AllRenderable(lines) && DeclarationsParse(lines)
  }

  /** `update_rollup_config` run once per name, in order, against the same
      configuration. `add_page` gets there only for a page whose directory
      does not exist yet, so a name repeated here stands for a repeated
      configuration update, not a repeated `add_page`. */
  function RegisterAll(lines: seq<string>, names: seq<string>): Result<seq<string>, ParseError>
    requires AllRenderable(lines) && forall k | 0 <= k < |names| :: ReprSafe(names[k])
  {
    UpdateSteps();
    Registered(UpdateRollupConfig, AllRenderable, ReprSafe, lines, names)
  }

  /** k successive configuration updates: every declaration ends up listing its old
      names followed by the k new ones in call order, duplicates included;
      every other line is untouched. */
  lemma RegisterAllAppends(lines: seq<string>, names: seq<string>)
    requires AllRenderable(lines) && DeclarationsParse(lines)
    requires forall k | 0 <= k < |names| :: ReprSafe(names[k]) && CleanName(names[k])
    ensures RegisterAll(lines, names).Success?
    ensures AppendedTo(ParseApps, lines, RegisterAll(lines, names).value, names)
  {
    UpdateSteps();
    RegistrableReprSafe();
    RegisteredAppends(UpdateRollupConfig, AllRenderable, ParsableConfig, ReprSafe, Registrable, ParseApps, lines, names);
  }

  /** Two updates in a row append their names in order. */
  lemma ComposeAppends(parse: string -> Result<seq<string>, ParseError>,
                       lines: seq<string>, next: seq<string>, final: seq<string>, first: string, rest: seq<string>)
    requires AppendedTo(parse, lines, next, [first]) && AppendedTo(parse, next, final, rest)
    ensures AppendedTo(parse, lines, final, [first] + rest)
  {
    forall i | 0 <= i < |lines| && IsDeclaration(lines[i])
      ensures parse(final[i]) == Success(parse(lines[i]).value + ([first] + rest))
    {
      var before := parse(lines[i]).value;
      assert IsDeclaration(next[i]);
      assert parse(final[i]) == Success(parse(next[i]).value + rest);
      assert before + [first] + rest == before + ([first] + rest);
    }
  }
}

=== FILE: scenarios.dfy ===
/** Registration runs: the configuration template's seed declaration,
    `create` registering its page, and further `update_rollup_config` runs
    (one per `add_page` of a new page), on a configuration whose only
    declaration is one line. Every update of a
    written declaration is taken care of once, for all names, by
    `UpdateSerialized` and `UpdateAllSerialized`; the runs below only spell
    out the lines that get written. */
module Scenarios {
  import opened Results
  import opened PyStrings
  import opened RollupConfig

  /** The declaration line the shipped configuration template starts with. */
  const SeedLine: string := "let svelte_apps = [];\n"

  /** The seed line is what serialising no names writes. */
  lemma SeedIsEmptyList()
    ensures SerializeApps([]) == SeedLine
  {
    assert QuoteAll([]) == [];
  }

  /** Updating a written declaration with a name writes the old names
      followed by the new one. */
  lemma UpdateSerialized(names: seq<string>, name: string)
    requires AllReprSafe(names) && AllClean(names) && ReprSafe(name)
    ensures Renderable(SerializeApps(names))
    ensures AllReprSafe(names + [name])
    ensures UpdateLine(SerializeApps(names), name) == Success(SerializeApps(names + [name]))
  {
    ParseSerialize(names);
    AllReprSafeAppend(names, name);
  }

  /** `UpdateLine` keeps a line renderable for every repr-safe name. */
  lemma LineSteps()
    ensures StepClosed(UpdateLine, Renderable, ReprSafe)
  {
    forall line, name | Renderable(line) && ReprSafe(name)
      ensures UpdateLine(line, name).Success? ==> Renderable(UpdateLine(line, name).value)
    {
      UpdateLineRenderable(line, name);
    }
  }

  /** A configuration whose only declaration is `line`: what that line
      becomes after `update_rollup_config` has run once per name, in order. */
  function UpdateLineAll(line: string, names: seq<string>): Result<string, ParseError>
    requires Renderable(line) && forall k | 0 <= k < |names| :: ReprSafe(names[k])
  {
    LineSteps();
    Registered(UpdateLine, Renderable, ReprSafe, line, names)
  }

  /** Names a declaration can have been written with. */
  predicate WrittenNames(names: seq<string>)
  {
    AllReprSafe(names) && AllClean(names)
  }

  /** Every written declaration can be updated. */
  lemma WrittenRenderable()
    ensures forall ns | WrittenNames(ns) :: Renderable(SerializeApps(ns))
  {
    forall ns | WrittenNames(ns)
      ensures Renderable(SerializeApps(ns))
    {
      ParseSerialize(ns);
    }
  }

  /** Updating a written declaration with a registrable name writes the
      names with that name appended. */
  lemma WrittenStep(ns: seq<string>, name: string)
    requires WrittenNames(ns) && Registrable(name)
    ensures WrittenNames(ns + [name]) && AllReprSafe(ns + [name]) && Renderable(SerializeApps(ns))
    ensures UpdateLine(SerializeApps(ns), name) == Success(SerializeApps(ns + [name]))
  {
    assert AllClean(ns + [name]) by {
      assert AllClean([name]) by {
        assert [name][0] == name;
      }
      AllCleanConcat(ns, [name]);
    }
    UpdateSerialized(ns, name);
  }

  /** `WrittenStep` for every written declaration and registrable name. */
  lemma WrittenSteps()
    ensures forall ns, name {:trigger ns + [name]} | WrittenNames(ns) && Registrable(name) ::
      && WrittenNames(ns + [name]) && AllReprSafe(ns + [name]) && Renderable(SerializeApps(ns))
      && UpdateLine(SerializeApps(ns), name) == Success(SerializeApps(ns + [name]))
  {
    forall ns, name | WrittenNames(ns) && Registrable(name)
      ensures WrittenNames(ns + [name]) && AllReprSafe(ns + [name]) && Renderable(SerializeApps(ns))
      ensures UpdateLine(SerializeApps(ns), name) == Success(SerializeApps(ns + [name]))
    {
      WrittenStep(ns, name);
    }
  }

  /** Registering `names` one after another on a written declaration writes
      the old names followed by all the new ones, in call order, duplicates
      included. */
  lemma UpdateAllSerialized(olds: seq<string>, names: seq<string>)
    requires WrittenNames(olds)
    requires forall k | 0 <= k < |names| :: ReprSafe(names[k]) && CleanName(names[k])
    ensures Renderable(SerializeApps(olds)) && AllReprSafe(olds + names)
    ensures UpdateLineAll(SerializeApps(olds), names) == Success(SerializeApps(olds + names))
  {
    LineSteps();
    WrittenRenderable();
    WrittenSteps();
    RegistrableReprSafe();
    RegisteredRenders(UpdateLine, Renderable, ReprSafe, Registrable, SerializeApps, WrittenNames, olds, names);
  }

  /** Starting from the template's seed declaration, k registrations leave a
      line that lists exactly the k names, in call order. */
  lemma RegisterFromSeed(names: seq<string>)
    requires forall k | 0 <= k < |names| :: ReprSafe(names[k]) && CleanName(names[k])
    ensures Renderable(SerializeApps([]))
    ensures UpdateLineAll(SerializeApps([]), names).Success?
    ensures ParseApps(UpdateLineAll(SerializeApps([]), names).value) == Success(names)
  {
    UpdateAllSerialized([], names);
    assert [] + names == names;
    assert AllReprSafe(names) && AllClean(names) by {
      assert forall k | 0 <= k < |names| :: Registrable(names[k]);
    }
    ParseSerialize(names);
  }

  /** The line written for two names. */
  lemma SerializeTwo(a: string, b: string)
    requires ReprSafe(a) && ReprSafe(b)
    ensures SerializeApps([a, b]) == RenderedHead + "['" + a + "', '" + b + "']" + RenderedTail
  {
    assert [a, b][1..] == [b];
    assert QuoteAll([b]) == [Quote(b)] + QuoteAll([]);
    assert QuoteAll([a, b]) == [Quote(a), Quote(b)];
    assert [Quote(a), Quote(b)][1..] == [Quote(b)];
    assert Join([Quote(b)], ", ") == Quote(b);
    var joined := Join([Quote(a), Quote(b)], ", ");
    assert joined == Quote(a) + ", " + Quote(b);
    assert "[" + joined + "]" == "['" + a + "', '" + b + "']";
  }

  /** The page names of the scenarios below can be registered. */
  lemma ScenarioNamesRegistrable()
    ensures Registrable("index") && Registrable("about")
  {
  }

  /** `create` registers its page (`index`) on the template's seed line,
      then `add_page` appends a second page after it. */
  lemma CreateThenAddPage(pages: seq<string>)
    requires |pages| == 2 && forall k | 0 <= k < |pages| :: ReprSafe(pages[k]) && CleanName(pages[k])
    ensures Renderable(SerializeApps([]))
    ensures UpdateLineAll(SerializeApps([]), pages)
         == Success(RenderedHead + "['" + pages[0] + "', '" + pages[1] + "']" + RenderedTail)
  {
    assert Registrable(pages[0]) && Registrable(pages[1]);
    assert [] + pages == [pages[0], pages[1]];
    SerializeTwo(pages[0], pages[1]);
    UpdateAllSerialized([], pages);
  }

  /** Updating the configuration for a page that is already listed lists it
      twice. `add_page` itself stops earlier for such a page when its
      directory still exists; the list can name it when it was edited by
      hand, when the directory was removed, or when an earlier name holding
      a `,` or surrounding whitespace reads back as this one (`a,b` is read
      as `a` and `b`, ` x` as `x`). */
  lemma DuplicateWrittenTwice(page: string)
    requires Registrable(page)
    ensures WrittenNames([page]) && Renderable(SerializeApps([page]))
    ensures UpdateLineAll(SerializeApps([page]), [page])
         == Success(RenderedHead + "['" + page + "', '" + page + "']" + RenderedTail)
  {
    assert WrittenNames([page]) by {
      assert [page][0] == page;
    }
    assert [page] + [page] == [page, page];
    UpdateAllSerialized([page], [page]);
    SerializeTwo(page, page);
  }
}

=== FILE: substitution.dfy ===
/** The placeholder substitution inside `copy_file_with_replace`: each marker
    of the replacement map is replaced, in the map's order, by its value. File
    reading and writing around it is not modelled. */
module Substitution {
  import opened PyStrings

  /** Marker for the project name in the package manifest template. */
  const AppNameMarker: string := "##app-name##"

  /** Marker for the page name in the HTML page template. */
  const SvelteAppMarker: string := "##svelte-app##"

  /** A replacement map in its insertion order, the order in which Python's
      `dict.items()` yields it. */
  type Replacements = seq<(string, string)>

  /** Applies each replacement in turn, in map order: every non-overlapping
      occurrence, from the left, of the key in the text so far is replaced by
      its value, and the next pair works on the result. */
  function ApplyReplacements(content: string, replacements: Replacements): (r: string)
    ensures replacements == [] ==> r == content
    decreases |replacements|
  {
    if replacements == [] then content
    else
      var (key, value) := replacements[0];
      ApplyReplacements(ReplaceAll(content, key, value), replacements[1..])
  }

  /** With no marker of the map present (and no empty marker), nothing changes:
      each step leaves the text as it found it, so later markers stay absent too. */
  lemma {:induction false} NoMarkerPresentUnchanged(content: string, replacements: Replacements)
    requires forall i | 0 <= i < |replacements| :: replacements[i].0 != [] && !Occurs(replacements[i].0, content)
    ensures ApplyReplacements(content, replacements) == content
    decreases |replacements|
  {
    if replacements != [] {
      var (key, value) := replacements[0];
      ReplaceAbsent(content, key, value);
      NoMarkerPresentUnchanged(content, replacements[1..]);
    }
  }

  /** A map whose every marker is mapped to itself changes nothing. */
  lemma {:induction false} IdentityMapUnchanged(content: string, replacements: Replacements)
    requires forall i | 0 <= i < |replacements| :: replacements[i].0 != [] && replacements[i].1 == replacements[i].0
    ensures ApplyReplacements(content, replacements) == content
    decreases |replacements|
  {
    if replacements != [] {
      var (key, value) := replacements[0];
      ReplaceBySelf(content, key);
      IdentityMapUnchanged(content, replacements[1..]);
    }
  }

  /** A one-marker map: the text between occurrences of the marker is kept,
      and every non-overlapping occurrence, from the left, becomes the value.
      An occurrence that overlaps an earlier one is not replaced. */
  lemma SingleMarker(content: string, key: string, value: string)
    requires key != []
    ensures ApplyReplacements(content, [(key, value)]) == Join(Split(content, key), value)
  {
    ReplaceIsJoinOfSplit(content, key, value);
  }

  /** The generated `package.json`: the template with the project name for
      every app-name marker. */
  function RenderManifest(template: string, projectName: string): (r: string)
    ensures r == Join(Split(template, AppNameMarker), projectName)
    ensures !Occurs(AppNameMarker, template) ==> r == template
  {
    SingleMarker(template, AppNameMarker, projectName);
    var r := ApplyReplacements(template, [(AppNameMarker, projectName)]);
    assert !Occurs(AppNameMarker, template) ==> r == template by {
      if !Occurs(AppNameMarker, template) {
        NoMarkerPresentUnchanged(template, [(AppNameMarker, projectName)]);
      }
    }
    r
  }

  /** The generated `templates/<name>.html`: the template with the page name
      for every page marker. */
  function RenderPageHtml(template: string, pageName: string): (r: string)
    ensures r == Join(Split(template, SvelteAppMarker), pageName)
    ensures !Occurs(SvelteAppMarker, template) ==> r == template
  {
    SingleMarker(template, SvelteAppMarker, pageName);
    var r := ApplyReplacements(template, [(SvelteAppMarker, pageName)]);
    assert !Occurs(SvelteAppMarker, template) ==> r == template by {
      if !Occurs(SvelteAppMarker, template) {
        NoMarkerPresentUnchanged(template, [(SvelteAppMarker, pageName)]);
      }
    }
    r
  }

  /** The copies made without a map (`rollup.config.js`, `tailwind.config.js`,
      `app/__init__.py`) reproduce the template. */
  function CopyVerbatim(template: string): (r: string)
    ensures r == template
  {
    ApplyReplacements(template, [])
  }
}

=== FILE: written_lists.dfy ===
/** Declarations as a person writes them in the configuration, before any
    update has rewritten them: names in single or double quotes, any
    whitespace around the elements and around the list, blank elements such
    as the one a trailing comma leaves. The parser of `update_rollup_config`
    reads such a line as the names it quotes, in order. */
module WrittenLists {
  import opened Results
  import opened PyStrings
  import opened RollupConfig

  /** One element of a hand-written list: blank, or a name between a pair of
      quotes, with whitespace on either side. */
  datatype Element =
    | Blank(pad: string)
    | Quoted(lead: string, quote: char, name: string, trail: string)

  predicate IsQuote(c: char)
  {
    c == '\'' || c == '"'
  }

  predicate WellWritten(e: Element)
  {
    match e
    case Blank(pad) => AllSpace(pad)
    case Quoted(lead, quote, name, trail) => AllSpace(lead) && AllSpace(trail) && IsQuote(quote) && CleanName(name)
  }

  predicate AllWellWritten(es: seq<Element>)
  {
    forall i | 0 <= i < |es| :: WellWritten(es[i])
  }

  function Text(e: Element): string
  {
    match e
    case Blank(pad) => pad
    case Quoted(lead, quote, name, trail) => lead + [quote] + name + [quote] + trail
  }

  function Texts(es: seq<Element>): seq<string>
  {
    seq(|es|, i requires 0 <= i < |es| => Text(es[i]))
  }

  /** The list as written: the elements between brackets, separated by commas. */
  function ListOf(es: seq<Element>): string
  {
    "[" + Join(Texts(es), ",") + "]"
  }

  /** The name an element quotes, if any. */
  function Named(e: Element): seq<string>
  {
    if e.Quoted? then [e.name] else []
  }

  /** The names a hand-written list quotes, in order. */
  function Listed(es: seq<Element>): seq<string>
    decreases |es|
  {
    if es == [] then [] else Named(es[0]) + Listed(es[1..])
  }

  /** The element without the whitespace in front of it. */
  function Unlead(e: Element): Element
  {
    match e
    case Blank(_) => Blank([])
    case Quoted(_, quote, name, trail) => Quoted([], quote, name, trail)
  }

  /** The element without the whitespace after it. */
  function Untrail(e: Element): Element
  {
    match e
    case Blank(_) => Blank([])
    case Quoted(lead, quote, name, _) => Quoted(lead, quote, name, [])
  }

  /** The elements with the whitespace at the two ends of the list removed. */
  function Ends(es: seq<Element>): seq<Element>
    requires |es| >= 1
  {
    if |es| == 1 then [Untrail(Unlead(es[0]))]
    else [Unlead(es[0])] + es[1..|es| - 1] + [Untrail(es[|es| - 1])]
  }

  // ---------------------------------------------------------------------
  // one element

  lemma QuotedTextAvoids(lead: string, quote: char, name: string, trail: string)
    requires AllSpace(lead) && AllSpace(trail) && IsQuote(quote) && CleanName(name)
    ensures forall c | c == ',' || c == ';' || c == '=' :: c !in lead + [quote] + name + [quote] + trail
  {
    SpaceAvoids(lead);
    SpaceAvoids(trail);
    assert forall i | 0 <= i < |name| :: !IsListSyntax(name[i]);
  }

  lemma QuotedTrimStart(lead: string, quote: char, name: string, trail: string)
    requires AllSpace(lead) && IsQuote(quote)
    ensures TrimStart(lead + [quote] + name + [quote] + trail) == [quote] + name + [quote] + trail
  {
    var rest := [quote] + name + [quote] + trail;
    assert lead + [quote] + name + [quote] + trail == lead + rest;
    TrimStartPadded(lead, rest);
  }

  lemma QuotedTrimEnd(lead: string, quote: char, name: string, trail: string)
    requires AllSpace(trail) && IsQuote(quote)
    ensures TrimEnd(lead + [quote] + name + [quote] + trail) == lead + [quote] + name + [quote]
  {
    var front := lead + [quote] + name + [quote];
    TrimEndAllSpace(trail);
    TrimEndConcat(front, trail);
    assert front + [] == front;
  }

  /** A well-written element has no list syntax outside its quotes. */
  lemma ElementAvoids(e: Element)
    requires WellWritten(e)
    ensures ',' !in Text(e) && ';' !in Text(e) && '=' !in Text(e)
  {
    match e
    case Blank(pad) =>
      SpaceAvoids(pad);
    case Quoted(lead, quote, name, trail) =>
      QuotedTextAvoids(lead, quote, name, trail);
  }

  /** The whitespace `lstrip()` removes from a well-written element is
      exactly its leading padding. */
  lemma ElementTrimStart(e: Element)
    requires WellWritten(e)
    ensures WellWritten(Unlead(e))
    ensures TrimStart(Text(e)) == Text(Unlead(e))
  {
    match e
    case Blank(pad) =>
      TrimStartAllSpace(pad);
    case Quoted(lead, quote, name, trail) =>
      QuotedTrimStart(lead, quote, name, trail);
      assert Text(Unlead(e)) == [quote] + name + [quote] + trail by {
        assert [] + [quote] == [quote];
      }
  }

  /** The whitespace `rstrip()` removes from a well-written element is
      exactly its trailing padding. */
  lemma ElementTrimEnd(e: Element)
    requires WellWritten(e)
    ensures WellWritten(Untrail(e))
    ensures TrimEnd(Text(e)) == Text(Untrail(e))
  {
    match e
    case Blank(pad) =>
      TrimEndAllSpace(pad);
    case Quoted(lead, quote, name, trail) =>
      QuotedTrimEnd(lead, quote, name, trail);
      assert Text(Untrail(e)) == lead + [quote] + name + [quote] + [];
  }

  /** Removing one character from text that holds none leaves it alone. */
  lemma RemoveAbsent(s: string, c: char)
    requires c !in s
    ensures ReplaceAll(s, [c], "") == s
  {
    OccursChar(c, s);
    ReplaceAbsent(s, [c], "");
  }

  /** Removing the quote character from a name between two of them, padded
      by text without it, leaves the padding and the name. */
  lemma RemoveQuotes(lead: string, quote: char, name: string, trail: string)
    requires quote !in lead && quote !in name && quote !in trail
    ensures ReplaceAll(lead + [quote] + name + [quote] + trail, [quote], "") == lead + name + trail
  {
    var q := [quote];
    assert ReplaceAll(q, q, "") == [] by {
      assert q <= q && q[1..] == [];
      assert ReplaceKey(q[1..], q, "") == [];
    }
    RemoveAbsent(lead, quote);
    RemoveAbsent(name, quote);
    RemoveAbsent(trail, quote);
    ReplaceCharConcat(lead + q + name + q, trail, quote, "");
    ReplaceCharConcat(lead + q + name, q, quote, "");
    ReplaceCharConcat(lead + q, name, quote, "");
    ReplaceCharConcat(lead, q, quote, "");
    assert lead + [] + name + [] + trail == lead + name + trail;
  }

  /** The parser's reading of one element: the quoted name, or nothing for a
      blank element. */
  lemma {:induction false} WrittenElementName(e: Element)
    requires WellWritten(e)
    ensures ElementName(Text(e)) == if e.Quoted? then e.name else []
    ensures e.Quoted? ==> e.name != []
  {
    match e
    case Blank(pad) =>
      assert '"' !in pad && '\'' !in pad;
      RemoveAbsent(pad, '"');
      RemoveAbsent(pad, '\'');
      StripAllSpace(pad);
    case Quoted(lead, quote, name, trail) =>
      assert '"' !in lead + name + trail && '\'' !in lead + name + trail;
      assert forall c | IsQuote(c) :: c !in name;
      if quote == '"' {
        RemoveQuotes(lead, quote, name, trail);
        RemoveAbsent(lead + name + trail, '\'');
      } else {
        RemoveAbsent(Text(e), '"');
        RemoveQuotes(lead, quote, name, trail);
      }
      StripPadded(lead, name, trail);
  }

  // ---------------------------------------------------------------------
  // the list

  lemma TextsSlice(es: seq<Element>)
    requires |es| >= 1
    ensures Texts(es)[1..] == Texts(es[1..])
  {
  }

  lemma TextsAppend(es: seq<Element>, e: Element)
    ensures Texts(es + [e]) == Texts(es) + [Text(e)]
  {
  }

  /** The names of the elements, blank ones dropped, are the names the list
      quotes. */
  lemma NamesWritten(es: seq<Element>)
    requires AllWellWritten(es)
    ensures ElementNames(Texts(es)) == Listed(es)
  {
    forall i | 0 <= i < |es|
      ensures (if ElementName(Text(es[i])) == [] then [] else [ElementName(Text(es[i]))]) == Named(es[i])
    {
      WrittenElementName(es[i]);
    }
    ImagesListed(ElementName, es);
  }

  /** Dropping the empty images of the element texts under `f` gives the
      names the elements quote, when it does so element by element. */
  lemma {:induction false} ImagesListed(f: string -> string, es: seq<Element>)
    requires forall i | 0 <= i < |es| :: (if f(Text(es[i])) == [] then [] else [f(Text(es[i]))]) == Named(es[i])
    ensures NonEmptyImages(f, Texts(es)) == Listed(es)
    decreases |es|
  {
    if es != [] {
      var rest := es[1..];
      TextsSlice(es);
      assert forall i | 0 <= i < |rest| :: rest[i] == es[i + 1];
      ImagesListed(f, rest);
    }
  }

  lemma {:induction false} ListedAppend(a: seq<Element>, b: seq<Element>)
    ensures Listed(a + b) == Listed(a) + Listed(b)
    decreases |a|
  {
    if a != [] {
      assert (a + b)[1..] == a[1..] + b;
      ListedAppend(a[1..], b);
    } else {
      assert a + b == b;
    }
  }

  lemma ListedOne(e: Element)
    ensures Listed([e]) == Named(e)
  {
    assert [e][1..] == [];
  }

  /** Trimming the two ends of the list drops no name. */
  lemma EndsListed(es: seq<Element>)
    requires |es| >= 1
    ensures Listed(Ends(es)) == Listed(es)
  {
    var first := es[0];
    if |es| == 1 {
      assert Named(Untrail(Unlead(first))) == Named(first);
      ListedOne(Untrail(Unlead(first)));
      ListedOne(first);
      assert es == [first];
    } else {
      var mid, last := es[1..|es| - 1], es[|es| - 1];
      Around(es);
      assert Ends(es) == [Unlead(first)] + mid + [Untrail(last)];
      ListedAround(first, Unlead(first), mid, last, Untrail(last));
    }
  }

  /** A list of two or more elements is its first, its middle and its last. */
  lemma Around(es: seq<Element>)
    requires |es| >= 2
    ensures es == [es[0]] + es[1..|es| - 1] + [es[|es| - 1]]
  {
    assert es[..|es| - 1] == [es[0]] + es[1..|es| - 1];
    assert es == es[..|es| - 1] + [es[|es| - 1]];
  }

  /** Replacing the first and last element by ones that name the same
      keeps the names of the list. */
  lemma ListedAround(first: Element, first': Element, mid: seq<Element>, last: Element, last': Element)
    requires Named(first') == Named(first) && Named(last') == Named(last)
    ensures Listed([first'] + mid + [last']) == Listed([first] + mid + [last])
  {
    ListedAppend([first] + mid, [last]);
    ListedAppend([first'] + mid, [last']);
    ListedAppend([first], mid);
    ListedAppend([first'], mid);
    ListedOne(first);
    ListedOne(first');
    ListedOne(last);
    ListedOne(last');
  }

  lemma EndsWellWritten(es: seq<Element>)
    requires |es| >= 1 && AllWellWritten(es)
    ensures AllWellWritten(Ends(es))
  {
    var ends := Ends(es);
    var n := |es|;
    forall i | 0 <= i < n
      ensures WellWritten(ends[i])
    {
      if i == 0 {
        ElementTrimStart(es[0]);
        if n == 1 {
          ElementTrimEnd(Unlead(es[0]));
        }
      } else if i == n - 1 {
        ElementTrimEnd(es[i]);
      } else {
        assert ends[i] == es[i];
      }
    }
  }

  /** `strip()` of the text between the brackets removes the whitespace in
      front of the first element and after the last, and nothing else. */
  lemma StripJoined(es: seq<Element>)
    requires |es| >= 1 && AllWellWritten(es)
    ensures Strip(Join(Texts(es), ",")) == Join(Texts(Ends(es)), ",")
  {
    if |es| == 1 {
      StripJoinedOne(es);
    } else {
      StripJoinedMany(es);
    }
  }

  lemma StripJoinedOne(es: seq<Element>)
    requires |es| == 1 && WellWritten(es[0])
    ensures Strip(Join(Texts(es), ",")) == Join(Texts(Ends(es)), ",")
  {
    var first := es[0];
    assert Join(Texts(es), ",") == Text(first) by {
      assert Texts(es) == [Text(first)];
    }
    assert Join(Texts(Ends(es)), ",") == Text(Untrail(Unlead(first))) by {
      assert Texts(Ends(es)) == [Text(Untrail(Unlead(first)))];
    }
    ElementTrimStart(first);
    ElementTrimEnd(Unlead(first));
  }

  lemma StripJoinedMany(es: seq<Element>)
    requires |es| >= 2 && WellWritten(es[0]) && WellWritten(es[|es| - 1])
    ensures Strip(Join(Texts(es), ",")) == Join(Texts(Ends(es)), ",")
  {
    var first, last := es[0], es[|es| - 1];
    var init := [Unlead(first)] + es[1..|es| - 1];
    var led := [Unlead(first)] + es[1..];
    assert TrimStart(Join(Texts(es), ",")) == Join(Texts(led), ",") by {
      JoinedLeadTrimmed(es);
    }
    assert TrimEnd(Join(Texts(led), ",")) == Join(Texts(Ends(es)), ",") by {
      assert led == init + [last] by {
        assert es[1..] == es[1..|es| - 1] + [last];
      }
      JoinedTrailTrimmed(init, last);
      assert Ends(es) == init + [Untrail(last)];
    }
  }

  /** `lstrip()` of a list of two or more elements trims the first one. */
  lemma JoinedLeadTrimmed(es: seq<Element>)
    requires |es| >= 2 && WellWritten(es[0])
    ensures TrimStart(Join(Texts(es), ",")) == Join(Texts([Unlead(es[0])] + es[1..]), ",")
  {
    var led := [Unlead(es[0])] + es[1..];
    var rest := "," + Join(Texts(es[1..]), ",");
    assert Join(Texts(es), ",") == Text(es[0]) + rest by {
      TextsSlice(es);
    }
    assert Join(Texts(led), ",") == Text(Unlead(es[0])) + rest by {
      TextsSlice(led);
      assert led[1..] == es[1..];
    }
    assert TrimStart(Text(es[0]) + rest) == Text(Unlead(es[0])) + rest by {
      TrimStartConcat(Text(es[0]), rest);
      ElementTrimStart(es[0]);
    }
  }

  /** `rstrip()` of a list of two or more elements trims the last one. */
  lemma JoinedTrailTrimmed(init: seq<Element>, last: Element)
    requires |init| >= 1 && WellWritten(last)
    ensures TrimEnd(Join(Texts(init + [last]), ",")) == Join(Texts(init + [Untrail(last)]), ",")
  {
    var front := Join(Texts(init), ",") + ",";
    TextsAppend(init, last);
    TextsAppend(init, Untrail(last));
    JoinLast(Texts(init), Text(last), ",");
    JoinLast(Texts(init), Text(Untrail(last)), ",");
    TrimEndConcat(front, Text(last));
    ElementTrimEnd(last);
  }

  /** The elements the parser splits a hand-written list into are the
      written elements, with the whitespace at the two ends of the list
      removed. */
  lemma ListElementsWritten(es: seq<Element>)
    requires |es| >= 1 && AllWellWritten(es)
    ensures ListElements(ListOf(es)) == Texts(Ends(es))
  {
    var body := Join(Texts(es), ",");
    assert ListOf(es) == "[" + body + "]";
    assert DropEnds(ListOf(es)) == body;
    StripJoined(es);
    EndsWellWritten(es);
    var ends := Ends(es);
    forall i | 0 <= i < |ends|
      ensures ',' !in Texts(ends)[i]
    {
      ElementAvoids(ends[i]);
    }
    JoinSplitChar(Texts(ends), ',');
  }

  /** The text of a hand-written list holds none of `=` and `;`, and starts
      and ends with a bracket. */
  lemma ListOfShape(es: seq<Element>)
    requires AllWellWritten(es)
    ensures '=' !in ListOf(es) && ';' !in ListOf(es)
    ensures ListOf(es) != [] && ListOf(es)[0] == '[' && ListOf(es)[|ListOf(es)| - 1] == ']'
  {
    var ts := Texts(es);
    forall c | c == '=' || c == ';'
      ensures c !in Join(ts, ",")
    {
      forall i | 0 <= i < |ts|
        ensures c !in ts[i]
      {
        ElementAvoids(es[i]);
      }
      JoinAvoids(ts, ",", c);
    }
  }

  /** A hand-written declaration parses to the names it quotes, in order:
      single or double quotes, any whitespace around the `=`, the list, the
      elements and the `;`, and blank elements (a trailing comma, an empty
      list) contribute nothing. */
  lemma ParseWritten(head: string, ws1: string, es: seq<Element>, ws2: string, ws3: string)
    requires '=' !in head
    requires AllSpace(ws1) && AllSpace(ws2) && AllSpace(ws3)
    requires |es| >= 1 && AllWellWritten(es)
    ensures ParseApps(head + "=" + ws1 + ListOf(es) + ws2 + ";" + ws3) == Success(Listed(es))
  {
    var rest := ws1 + ListOf(es) + ws2 + ";" + ws3;
    Regroup(head, ws1, ListOf(es), ws2, ws3);
    RightHandSideWritten(head, ws1, es, ws2, ws3);
    ListTextWritten(ws1, es, ws2, ws3);
    ListNamesWritten(es);
  }

  /** Nothing after the `=` of a hand-written declaration is cut off. */
  lemma RightHandSideWritten(head: string, ws1: string, es: seq<Element>, ws2: string, ws3: string)
    requires '=' !in head
    requires AllSpace(ws1) && AllSpace(ws2) && AllSpace(ws3)
    requires AllWellWritten(es)
    ensures '=' in head + "=" + (ws1 + ListOf(es) + ws2 + ";" + ws3)
    ensures SecondPiece(head + "=" + (ws1 + ListOf(es) + ws2 + ";" + ws3)) == ws1 + ListOf(es) + ws2 + ";" + ws3
  {
    var rest := ws1 + ListOf(es) + ws2 + ";" + ws3;
    ListOfShape(es);
    SpaceAvoids(ws1);
    SpaceAvoids(ws2);
    SpaceAvoids(ws3);
    assert '=' !in rest;
    SecondPieceOf(head, rest);
  }

  lemma ListTextWritten(ws1: string, es: seq<Element>, ws2: string, ws3: string)
    requires AllSpace(ws1) && AllSpace(ws2) && AllSpace(ws3)
    requires AllWellWritten(es)
    ensures ListText(ws1 + ListOf(es) + ws2 + ";" + ws3) == ListOf(es)
  {
    ListOfShape(es);
    ListTextPadded(ws1, ListOf(es), ws2, ws3);
  }

  /** The elements of a hand-written list give the names it quotes. */
  lemma ListNamesWritten(es: seq<Element>)
    requires |es| >= 1 && AllWellWritten(es)
    ensures ElementNames(ListElements(ListOf(es))) == Listed(es)
  {
    ListElementsWritten(es);
    EndsWellWritten(es);
    NamesWritten(Ends(es));
    EndsListed(es);
  }

  lemma Regroup(head: string, ws1: string, list: string, ws2: string, ws3: string)
    ensures head + "=" + ws1 + list + ws2 + ";" + ws3 == head + "=" + (ws1 + list + ws2 + ";" + ws3)
  {
  }

  /** A line the update would write, taken apart at its `=` and `;`. */
  lemma RenderedAround(list: string)
    ensures RenderedHead + list + RenderedTail == "let svelte_apps " + "=" + " " + list + [] + ";" + "\n"
  {
    assert RenderedHead == "let svelte_apps " + "=" + " ";
  }

  /** A declaration written with double quotes reads the same as one the
      update writes. */
  lemma DoubleQuoted(name: string)
    requires CleanName(name)
    ensures ParseApps(RenderedHead + "[\"" + name + "\"]" + RenderedTail) == Success([name])
  {
    var e := Quoted([], '"', name, []);
    var es := [e];
    assert ListOf(es) == "[\"" + name + "\"]" by {
      assert Texts(es) == [Text(e)];
      assert Text(e) == "\"" + name + "\"";
    }
    assert Listed(es) == [name] by {
      ListedOne(e);
    }
    assert AllWellWritten(es) by {
      assert WellWritten(e);
    }
    assert RenderedHead + "[\"" + name + "\"]" + RenderedTail
        == "let svelte_apps " + "=" + " " + ListOf(es) + [] + ";" + "\n" by {
      RenderedAround(ListOf(es));
    }
    ParseWritten("let svelte_apps ", " ", es, [], "\n");
  }

  lemma JoinThree(x: string, y: string, z: string, sep: string)
    ensures Join([x, y, z], sep) == x + sep + y + sep + z
  {
    assert [x, y, z][1..] == [y, z] && [y, z][1..] == [z];
    assert Join([y, z], sep) == y + sep + z;
    assert Join([x, y, z], sep) == x + sep + (y + sep + z);
  }

  /** `['a', 'b',]`: two quoted names and the blank element after the
      trailing comma. */
  function TwoWithTrailingComma(a: string, b: string): seq<Element>
  {
    [Quoted([], '\'', a, []), Quoted(" ", '\'', b, []), Blank([])]
  }

  lemma TwoWithTrailingCommaShape(a: string, b: string)
    requires CleanName(a) && CleanName(b)
    ensures ListOf(TwoWithTrailingComma(a, b)) == "['" + a + "', '" + b + "',]"
    ensures Listed(TwoWithTrailingComma(a, b)) == [a, b]
    ensures AllWellWritten(TwoWithTrailingComma(a, b))
  {
    TwoWithTrailingCommaText(a, b);
    TwoWithTrailingCommaListed(a, b);
    var es := TwoWithTrailingComma(a, b);
    assert WellWritten(es[0]) && WellWritten(es[1]) && WellWritten(es[2]);
  }

  lemma TwoWithTrailingCommaText(a: string, b: string)
    ensures ListOf(TwoWithTrailingComma(a, b)) == "['" + a + "', '" + b + "',]"
  {
    var es := TwoWithTrailingComma(a, b);
    var ea, eb, blank := es[0], es[1], es[2];
    assert Texts(es) == [Text(ea), Text(eb), Text(blank)];
    assert Text(ea) == "'" + a + "'" && Text(eb) == " '" + b + "'" && Text(blank) == [];
    JoinThree(Text(ea), Text(eb), Text(blank), ",");
  }

  lemma TwoWithTrailingCommaListed(a: string, b: string)
    ensures Listed(TwoWithTrailingComma(a, b)) == [a, b]
  {
    var es := TwoWithTrailingComma(a, b);
    var eb, blank := es[1], es[2];
    assert es[1..] == [eb, blank] && es[1..][1..] == [blank];
    ListedOne(blank);
    assert Listed(es[1..]) == [b] + Listed([blank]);
  }

  /** A trailing comma adds no name. */
  lemma TrailingComma(a: string, b: string)
    requires CleanName(a) && CleanName(b)
    ensures ParseApps(RenderedHead + "['" + a + "', '" + b + "',]" + RenderedTail) == Success([a, b])
  {
    var es := TwoWithTrailingComma(a, b);
    TwoWithTrailingCommaShape(a, b);
    assert RenderedHead + "['" + a + "', '" + b + "',]" + RenderedTail
        == "let svelte_apps " + "=" + " " + ListOf(es) + [] + ";" + "\n" by {
      RenderedAround(ListOf(es));
    }
    ParseWritten("let svelte_apps ", " ", es, [], "\n");
  }
}
